=== FILE: README.md ===
# Kafka topic availability and schema helpers of the Aiven Terraform provider, in Dafny

This project models four pieces of the provider:

- **The process-wide Kafka topic cache.** It holds four maps keyed by the concatenation `projectName + serviceName`:
  - the cached topics;
  - the queue of names awaiting a batch lookup;
  - the names confirmed missing;
  - the service's V1 topic listing.

  Every cache operation is a pure transition from one `Cache` value to the next.
- **The topic availability waiter.** This covers its constructor, one tick of its refresh function (`PollStep`), and the batched refresh that feeds the cache (`RefreshTopics`, `BatchLoop`).
  - The single-permit semaphore is the `permitHeld` flag of `Env`.
  - The V1 listing call is a response value.
  - The V2 batch lookup is a function from the queried names to a response.
  - The batch loop has a `fuel` bound.
- **The schema helpers.** These are the integration list, the project VPC id, the maintenance window, and the organization/account id choice. The vendor lookups are function parameters.
- **The user-config attribute handlers.** These cover the aggregate dispatch, object properties and array properties. The model keeps the keys, the flags and the schema fields these handlers set. The generator's collaborators (type mapping, property conversion, descriptions, `%#v` rendering) are the fields of a `Generator` value.

Modules:
- `Outcomes`: `Option`, `Error`, `Result`, and `IsNotFound` with `errors.As` semantics.
- `GoSlices`: filtering, and Go's delete-while-ranging idiom over a shared backing array.
- `TopicCache`: `kafka_topic_cache.go`.
- `TopicWait`: `kafka_topic_wait.go`.
- `SchemaHelpers`: `helpers.go`.
- `UserConfigHandle`: `handle.go`.

Three behaviours of the cache code are worth noting, and the model follows the code in each:
- `FlushTopicCache` removes queue, missing and V1 entries only for keys that have cached topics, so the entries of a key without cached topics survive a flush.
- `AddToQueue` does not consult the missing list. So `MissingNotQueued` (no queued name is also recorded missing) is not an invariant of the cache operations on their own. `AddToQueueIgnoresMissing` exhibits a violation. It is kept by the poll step, because the poll step only enqueues a name after checking that the name is not missing (`PollPreservesInvariant`).
- `GetQueue` hands out at most 99 names: its comment at kafka_topic_cache.go:152 speaks of up to 100 first elements, while the slice `[:99]` holds 99.

## Model

| member | source | states |
|---|---|---|
| TopicCache.LoadByProjectAndServiceName | internal/sdkprovider/service/kafka/kafka_topic_cache.go:47-53 | found exactly when the key has a topic map, and then returns that map |
| TopicCache.LoadByTopicName | internal/sdkprovider/service/kafka/kafka_topic_cache.go:58-75 | found iff the topic is cached under the key, returning the stored topic; otherwise the placeholder with state CONFIGURING |
| TopicCache.DeleteByProjectAndServiceName | internal/sdkprovider/service/kafka/kafka_topic_cache.go:79-83 | only the key's cached topics go; the queue, missing and V1 maps are untouched |
| TopicCache.StoreByProjectAndServiceName | internal/sdkprovider/service/kafka/kafka_topic_cache.go:86-89 | an empty batch leaves the whole cache unchanged |
| TopicCache.StoreAllTopics | internal/sdkprovider/service/kafka/kafka_topic_cache.go:93-99 | the key's cached names become the old ones plus the batch's names; each batch name maps to a topic of the batch; other keys unchanged |
| TopicCache.StoreAllQueue | internal/sdkprovider/service/kafka/kafka_topic_cache.go:100-105 | the key's queue loses exactly the batch's names and keeps its order; other queues, missing and V1 lists unchanged |
| TopicCache.StoreEffect | internal/sdkprovider/service/kafka/kafka_topic_cache.go:93-108 | after a store every stored topic loads as found and is no longer queued; the rest of the queue keeps its order; topics not in the batch keep their entries |
| TopicCache.StoreAllLastWins | internal/sdkprovider/service/kafka/kafka_topic_cache.go:93-99 | a batch topic whose name does not recur later in the batch is the entry cached under that name, so a repeated name keeps its last topic |
| TopicCache.StoreLoadsLastTopic | internal/sdkprovider/service/kafka/kafka_topic_cache.go:86-99 | after a store, loading a batch name that does not recur later in the batch gives that topic, found |
| TopicCache.StoreThenLoad | internal/sdkprovider/service/kafka/kafka_topic_cache.go:93-99 | when batch names are distinct, each stored topic loads back as exactly itself |
| TopicCache.StoreOtherKeys | internal/sdkprovider/service/kafka/kafka_topic_cache.go:95-103 | a store touches the queue and the topics of its own key only |
| TopicCache.StoreKeepsCached | internal/sdkprovider/service/kafka/kafka_topic_cache.go:93-99 | a store never uncaches a topic under any key |
| TopicCache.StoreKeepsV1List | internal/sdkprovider/service/kafka/kafka_topic_cache.go:93-99 | a store leaves every V1 list unchanged |
| TopicCache.AddToQueue | internal/sdkprovider/service/kafka/kafka_topic_cache.go:112-129 | a name already queued or cached leaves the cache exactly as it was; any other name is appended at the end of the key's queue; other queues and the other maps are unchanged |
| TopicCache.AddToQueueIdempotent | internal/sdkprovider/service/kafka/kafka_topic_cache.go:116-127 | enqueuing the same name twice equals enqueuing it once |
| TopicCache.AddToQueueIgnoresMissing | internal/sdkprovider/service/kafka/kafka_topic_cache.go:123-127 | a name recorded missing and not cached is still enqueued, so queued and missing can overlap |
| TopicCache.DeleteFromQueueAndMarkMissing | internal/sdkprovider/service/kafka/kafka_topic_cache.go:132-142 | the name leaves the queue, every other queued name stays, the name is appended to missing; other keys and maps unchanged |
| TopicCache.DeleteFromQueueSlice | internal/sdkprovider/service/kafka/kafka_topic_cache.go:134-138 | the key's queue afterwards is the old queue without the name, the other names in their order |
| TopicCache.MarkMissingAccumulates | internal/sdkprovider/service/kafka/kafka_topic_cache.go:140 | marking a name missing twice lists it twice |
| TopicCache.MarkMissingKeepsOrder | internal/sdkprovider/service/kafka/kafka_topic_cache.go:134-138 | on a duplicate-free queue, marking the name at position i removes exactly position i |
| TopicCache.GetQueue | internal/sdkprovider/service/kafka/kafka_topic_cache.go:153-162 | the batch is a prefix of the queue of length min(queue length, 99) |
| TopicCache.GetQueueCapsAt99 | internal/sdkprovider/service/kafka/kafka_topic_cache.go:157-159 | a queue of 100 or more names yields exactly 99 |
| TopicCache.FlushTopicCache | internal/sdkprovider/service/kafka/kafka_topic_cache.go:165-175 | topics emptied; a queue, missing or V1 entry survives iff its key had no cached topics, with its value unchanged |
| TopicCache.FlushKeepsUncachedKeys | internal/sdkprovider/service/kafka/kafka_topic_cache.go:168-173 | the queue of a key without cached topics survives a flush unchanged |
| TopicCache.SetV1List | internal/sdkprovider/service/kafka/kafka_topic_cache.go:178-184 | the listed names are appended, in order, to the key's V1 list; other keys and maps unchanged |
| TopicCache.Empty | internal/sdkprovider/service/kafka/kafka_topic_cache.go:29-36 | the fresh cache; its contents are stated by `EmptyReadsNothing` and `EmptyValid` |
| TopicCache.EmptyReadsNothing | internal/sdkprovider/service/kafka/kafka_topic_cache.go:29-36 | the freshly created cache has no topics under any key, and its queue, missing list and V1 list read as empty |
| TopicCache.GetMissing | internal/sdkprovider/service/kafka/kafka_topic_cache.go:144-150 | the key's missing list; what it reads back is stated by `GettersReadBack` and `PollMissingIsNotFound` |
| TopicCache.GetV1List | internal/sdkprovider/service/kafka/kafka_topic_cache.go:186-192 | the key's V1 list; what it reads back is stated by `GettersReadBack` and `PollKeepsV1List` |
| TopicCache.GettersReadBack | internal/sdkprovider/service/kafka/kafka_topic_cache.go:140-192 | the missing list read back after marking ends with the marked name, and the V1 list read back after a listing ends with the listed names, in order |
| TopicCache.KeyCollision | internal/sdkprovider/service/kafka/kafka_topic_cache.go:62 | ("ab","c") and ("a","bc") read the same cache entry |
| TopicCache.EmptyValid | internal/sdkprovider/service/kafka/kafka_topic_cache.go:29-36 | the fresh cache satisfies both invariants |
| TopicCache.AddToQueuePreservesValid | internal/sdkprovider/service/kafka/kafka_topic_cache.go:112-129 | enqueuing keeps every queue duplicate-free and disjoint from the cached names |
| TopicCache.StorePreservesValid | internal/sdkprovider/service/kafka/kafka_topic_cache.go:93-108 | storing keeps every queue duplicate-free and disjoint from the cached names |
| TopicCache.MarkMissingPreservesValid | internal/sdkprovider/service/kafka/kafka_topic_cache.go:132-142 | marking missing keeps the queue invariant |
| TopicCache.OtherOperationsPreserveValid | internal/sdkprovider/service/kafka/kafka_topic_cache.go:164-184 | flush, V1 update and (line 79-83) delete keep the queue invariant |
| TopicCache.AddToQueuePreservesMissingNotQueued | internal/sdkprovider/service/kafka/kafka_topic_cache.go:112-129 | enqueuing a name not recorded missing keeps queued and missing names apart |
| TopicCache.StorePreservesMissingNotQueued | internal/sdkprovider/service/kafka/kafka_topic_cache.go:93-108 | storing keeps queued and missing names apart |
| TopicCache.MarkMissingPreservesMissingNotQueued | internal/sdkprovider/service/kafka/kafka_topic_cache.go:132-142 | marking missing keeps queued and missing names apart |
| TopicCache.InPlaceRemovalExact | internal/sdkprovider/service/kafka/kafka_topic_cache.go:101-105 | on a valid cache Go's in-place removal loop never panics and leaves exactly the filtered queue |
| GoSlices.RangeDeleteOnDistinct | internal/sdkprovider/service/kafka/kafka_topic_cache.go:134-138 | on a duplicate-free slice the range-and-delete loop removes the one occurrence (shifting the backing array) and nothing else |
| TopicWait.NewWaiter | internal/sdkprovider/service/kafka/kafka_topic_wait.go:25-35 | fails iff project, service or topic name is empty, with the invalid-input error; otherwise the waiter holds the three names |
| TopicWait.NewWaiterAsWritten | internal/sdkprovider/service/kafka/kafka_topic_wait.go:26-28 | the 64-bit product test rejects every empty name |
| TopicWait.NewWaiterAgreesWithoutOverflow | internal/sdkprovider/service/kafka/kafka_topic_wait.go:26 | while the product of the lengths stays below 2^63, the code as written equals the intended constructor |
| TopicWait.NewWaiterOverflowRejectsLongNames | internal/sdkprovider/service/kafka/kafka_topic_wait.go:26 | three non-empty names of 2^22 characters are rejected as written and accepted as intended |
| TopicWait.MarkQueuedMissing | internal/sdkprovider/service/kafka/kafka_topic_wait.go:118-125 | the intended reconciliation; its effect is stated by `MarkQueuedMissingSpec`, `MarkQueuedMissingFrame` and `MarkQueuedMissingPreservesInvariant` |
| TopicWait.MarkQueuedMissingSpec | internal/sdkprovider/service/kafka/kafka_topic_wait.go:118-125 | exactly the batch names absent from the V1 listing are appended to missing in batch order and leave the queue; nothing else changes |
| TopicWait.MarkQueuedMissingPreservesInvariant | internal/sdkprovider/service/kafka/kafka_topic_wait.go:120-124 | the reconciliation keeps both cache invariants |
| TopicWait.MarkQueuedMissingFrame | internal/sdkprovider/service/kafka/kafka_topic_wait.go:118-125 | the intended reconciliation changes only the queue and the missing list of its own key |
| TopicWait.MarkLoopAsWritten | internal/sdkprovider/service/kafka/kafka_topic_wait.go:120-124 | the aliasing loop keeps the backing array's length, never grows the queue and only appends to the names it marks |
| TopicWait.MarkQueuedMissingAsWritten | internal/sdkprovider/service/kafka/kafka_topic_wait.go:118-125 | the reconciliation as written only appends to the key's missing list and changes neither the topics, the V1 lists nor any other key |
| TopicWait.MarkLoopNoPanic | internal/sdkprovider/service/kafka/kafka_topic_wait.go:120-124 | from any position, the aliasing loop over a duplicate-free queue never panics |
| TopicWait.MarkQueuedMissingAsWrittenNoPanic | internal/sdkprovider/service/kafka/kafka_topic_wait.go:120-124 | on a valid cache the reconciliation as written never panics; only a queue holding a name twice could make a deletion's slice expression go out of range |
| TopicWait.AliasedMarkingSkipsNames | internal/sdkprovider/service/kafka/kafka_topic_wait.go:120-124 | on queue [a, b, c] with V1 listing [c] the code as written marks only a and leaves b queued |
| TopicWait.IntendedMarkingOnExample | internal/sdkprovider/service/kafka/kafka_topic_wait.go:118-125 | on the same input the intended reconciliation marks a and b and leaves [c] queued |
| TopicWait.BatchLoop | internal/sdkprovider/service/kafka/kafka_topic_wait.go:106-133 | the batch loop with a round bound; its behaviour is stated by the `BatchLoop...` lemmas below, `FoundRound`, `FailedRound` and `DrainWithCompleteBackend` |
| TopicWait.BatchLoopBatches | internal/sdkprovider/service/kafka/kafka_topic_wait.go:106-133 | every batch is non-empty with at most 99 names, the first is the queue's head, an empty queue ends without batches, and a returned error is never a not-found |
| TopicWait.BatchLoopEmptyQueue | internal/sdkprovider/service/kafka/kafka_topic_wait.go:106-110 | an empty queue ends the loop at once, with nil, no query and the cache unchanged |
| TopicWait.BatchLoopReportsError | internal/sdkprovider/service/kafka/kafka_topic_wait.go:113-127 | a batch failing with an error other than not-found ends the loop with that very error after that one batch, the cache unchanged |
| TopicWait.BatchLoopNotFound | internal/sdkprovider/service/kafka/kafka_topic_wait.go:113-126 | a 404 batch ends the loop with nil after exactly one batch; with the reconciliation as intended (see Findings), exactly its names absent from V1 are marked missing and the topics are unchanged |
| TopicWait.BatchLoopFoundStep | internal/sdkprovider/service/kafka/kafka_topic_wait.go:113-131 | an answered batch hands the loop on to the next round on the cache after the store, with the same outcome |
| TopicWait.BatchLoopErrorFromLastBatch | internal/sdkprovider/service/kafka/kafka_topic_wait.go:106-133 | an error returned by the loop is the failure of its last batch |
| TopicWait.BatchLoopFrame | internal/sdkprovider/service/kafka/kafka_topic_wait.go:106-131 | the loop keeps the V1 lists and never uncaches a topic |
| TopicWait.BatchLoopPreservesInvariant | internal/sdkprovider/service/kafka/kafka_topic_wait.go:106-131 | the loop keeps both cache invariants |
| TopicWait.FoundRound | internal/sdkprovider/service/kafka/kafka_topic_wait.go:106-130 | an answered batch stores its topics and hands on to the next round, keeping the V1 lists, every cached topic and both invariants |
| TopicWait.FailedRound | internal/sdkprovider/service/kafka/kafka_topic_wait.go:113-127 | a failed batch ends the loop, keeping the V1 lists, every cached topic and both invariants |
| TopicWait.AnsweredBatchProgress | internal/sdkprovider/service/kafka/kafka_topic_wait.go:113-130 | a batch answered for every queried name strictly shortens the queue; each queued name ends cached or still queued |
| TopicWait.DrainWithCompleteBackend | internal/sdkprovider/service/kafka/kafka_topic_wait.go:106-133 | with a backend that answers every name and enough rounds, the loop ends without error, the queue is empty, and every name that was queued or cached is cached |
| TopicWait.RefreshTopics | internal/sdkprovider/service/kafka/kafka_topic_wait.go:90-104 | a held permit or an already cached topic returns nil with the cache untouched and no query; the permit is released afterwards |
| TopicWait.RefreshQueriesTargetFirst | internal/sdkprovider/service/kafka/kafka_topic_wait.go:104-113 | the first batch is the head of the queue after enqueuing the target, and holds the target iff fewer than 99 names precede it |
| TopicWait.RefreshCachesTarget | internal/sdkprovider/service/kafka/kafka_topic_wait.go:97-133 | with an answering backend a refresh that runs caches the target, reports no error and releases the permit |
| TopicWait.RefreshPreservesInvariant | internal/sdkprovider/service/kafka/kafka_topic_wait.go:97-133 | a refresh keeps both invariants, the V1 lists and every cached topic |
| TopicWait.EnsureV1List | internal/sdkprovider/service/kafka/kafka_topic_wait.go:46-52 | a held listing is kept; otherwise a failed listing becomes the wrapped error and a successful one is stored under the waiter's key only; the other maps and the other keys' V1 lists are unchanged |
| TopicWait.RetryableOrReported | internal/sdkprovider/service/kafka/kafka_topic_wait.go:63-76 | the error is dropped iff it is an API error with status 501 or 502; otherwise it is reported unchanged |
| TopicWait.PollStep | internal/sdkprovider/service/kafka/kafka_topic_wait.go:39-88 | an error comes with no topic and CONFIGURING; a reported topic is cached and its state is the reported one; the permit is as before; 501/502 are never reported |
| TopicWait.PollV1ListFailure | internal/sdkprovider/service/kafka/kafka_topic_wait.go:46-50 | a failed V1 listing yields CONFIGURING with the wrapped error, no query and no change |
| TopicWait.PollKeepsV1List | internal/sdkprovider/service/kafka/kafka_topic_wait.go:46-52 | after a fetched listing the cache holds exactly its names |
| TopicWait.PollMissingIsNotFound | internal/sdkprovider/service/kafka/kafka_topic_wait.go:54-57 | a topic recorded missing gets the 404 "Topic ... is not found" error with no batch query and the permit untouched |
| TopicWait.PollCachedReportsState | internal/sdkprovider/service/kafka/kafka_topic_wait.go:59-86 | a cached topic is returned with its stored state, without a refresh |
| TopicWait.PollWhileRefreshInProgress | internal/sdkprovider/service/kafka/kafka_topic_wait.go:59-94 | while another refresh holds the permit an uncached topic is CONFIGURING with no error and no query |
| TopicWait.PollReportsRefreshError | internal/sdkprovider/service/kafka/kafka_topic_wait.go:59-76 | a failed refresh of an uncached topic gives no topic and CONFIGURING with the refresh error, dropped only when it is an API error with status 501 or 502 |
| TopicWait.PollAfterSuccessfulRefresh | internal/sdkprovider/service/kafka/kafka_topic_wait.go:59-86 | after a successful refresh the topic is reported with its state if now cached, and otherwise CONFIGURING with no error |
| TopicWait.PollRetriesGatewayErrors | internal/sdkprovider/service/kafka/kafka_topic_wait.go:63-74 | a refresh failing with an API error of status 501 or 502, whatever its message and round, gives CONFIGURING with no error |
| TopicWait.PollPreservesInvariant | internal/sdkprovider/service/kafka/kafka_topic_wait.go:39-88 | a poll keeps both invariants and every cached topic, stores a fetched listing, and leaves the V1 lists of other services unchanged |
| TopicWait.PollConverges | internal/sdkprovider/service/kafka/kafka_topic_wait.go:39-88 | with an answering backend and a free permit, a topic not recorded missing is reported with its state in one poll |
| SchemaHelpers.GetAPIServiceIntegrations | internal/schemautil/helpers.go:25-42 | nil gives no integrations; otherwise one per definition, each with a source service and an empty user config |
| SchemaHelpers.IntegrationsRoundTrip | internal/schemautil/helpers.go:30-39 | reading the definitions back from the integrations gives the input, position by position |
| SchemaHelpers.IntegrationsAppend | internal/schemautil/helpers.go:30-39 | the mapping distributes over concatenation, so it neither reorders nor drops |
| SchemaHelpers.SplitOnFirstSlash | internal/schemautil/helpers.go:52 | one part iff there is no slash; two parts joined by "/" give the input, the first without slashes |
| SchemaHelpers.GetProjectVPCIdPointer | internal/schemautil/helpers.go:44-60 | empty gives no pointer and no error; no slash gives the format error; otherwise the suffix after the first slash |
| SchemaHelpers.VPCIdRoundTrip | internal/schemautil/helpers.go:52-59 | a slash-free project joined to any VPC id by "/" yields that VPC id |
| SchemaHelpers.GetMaintenanceWindow | internal/schemautil/helpers.go:62-74 | a window iff the day is neither "never" nor empty and the time is non-empty, carrying both unchanged |
| SchemaHelpers.NeverHasNoWindow | internal/schemautil/helpers.go:64-68 | "never" gives no window whatever the time |
| SchemaHelpers.OrganizationIDPrefix | internal/schemautil/helpers.go:130-132 | an organization id is exactly a string whose first three characters are o, r, g |
| SchemaHelpers.NormalizeOrganizationID | internal/schemautil/helpers.go:137-148 | other ids are returned unchanged; an organization id becomes the lookup's account id or its error |
| SchemaHelpers.NormalizeAccountIDWithoutLookup | internal/schemautil/helpers.go:138-147 | for a non-organization id the result does not depend on the lookup |
| SchemaHelpers.DetermineMixedOrganizationConstraintIDToStore | internal/schemautil/helpers.go:157-180 | empty account gives ""; a non-organization state id gives the account id; otherwise the account's organization id, or the account id if that is empty; lookup errors propagate |
| SchemaHelpers.StoredIDIsAccountOrOrganization | internal/schemautil/helpers.go:162-179 | a stored id is empty iff the account id is, and is the account id or the looked-up organization id |
| SchemaHelpers.DetermineWithoutLookup | internal/schemautil/helpers.go:162-168 | with no account id or a non-organization state id the result does not depend on the lookup |
| UserConfigHandle.HandlePrimitiveTypeProperty | internal/schemautil/userconfig/handle.go:12-14 | a primitive property yields the single key n |
| UserConfigHandle.PropertiesOf | internal/schemautil/userconfig/handle.go:23-33 | fields come from `properties`, else from `items.properties`, else none |
| UserConfigHandle.HandleObjectProperty | internal/schemautil/userconfig/handle.go:17-54 | fails iff no properties are found or their conversion fails; on success the single key n with MaxItems 1, the resource Elem and the empty-object diff suppression, other converted fields kept |
| UserConfigHandle.HandleArrayProperty | internal/schemautil/userconfig/handle.go:85-123 | items that are not an object fail with the items error; a type-scan or type-mapping error is returned |
| UserConfigHandle.OneOfTypes | internal/schemautil/userconfig/handle.go:101-112 | succeeds iff every one_of element is an object with a string type, in order; the first non-object fails, a non-string type panics |
| UserConfigHandle.OneOfElementNotObjectFails | internal/schemautil/userconfig/handle.go:105-109 | a non-object one_of element after well-typed ones fails the property with the element error |
| UserConfigHandle.ItemTypes | internal/schemautil/userconfig/handle.go:101-123 | without one_of the types come from the items' type; with one_of they are the Terraform types of the scanned element types; a one_of scan error is returned and a panic propagates |
| UserConfigHandle.KeyNameRule | internal/schemautil/userconfig/handle.go:127-142 | one type keeps n; several give n_type, with ip_filter_string and namespaces_string renamed, so those two names never result |
| UserConfigHandle.Rename | internal/schemautil/userconfig/handle.go:133-141 | the renamed key is never ip_filter_string or namespaces_string, and other keys are untouched |
| UserConfigHandle.ArrayOfPrimitive | internal/schemautil/userconfig/handle.go:58-69 | a schema of the given type, with a diff suppression iff the key is ip_filter |
| UserConfigHandle.OneOfItem | internal/schemautil/userconfig/handle.go:146-151 | without one_of there is no element; an index past the one_of list panics; otherwise the element's object |
| UserConfigHandle.ElemFor | internal/schemautil/userconfig/handle.go:153-183 | a primitive type gives the primitive schema; otherwise a successful Elem is a resource |
| UserConfigHandle.DescribedSchema | internal/schemautil/userconfig/handle.go:185-202 | for one_of the description joins both descriptions and Deprecated is set iff already set or the element is deprecated; a non-string element type fails |
| UserConfigHandle.FinishEntry | internal/schemautil/userconfig/handle.go:204-231 | Elem, ip_filter diff suppression and MaxItems are set; a companion exists iff the key is ip_filter or one_of namespaces, and the entry is that companion plus the v5 message |
| UserConfigHandle.ArrayEntry | internal/schemautil/userconfig/handle.go:127-232 | the entry's key follows the naming rule and carries a companion exactly under the companion rule |
| UserConfigHandle.ArrayEntriesKeys | internal/schemautil/userconfig/handle.go:125-232 | the loop adds exactly the keys of the remaining types |
| UserConfigHandle.ArrayEntriesCompanions | internal/schemautil/userconfig/handle.go:215-231 | the loop keeps every companion equal to its key's schema without the v5 message |
| UserConfigHandle.ArrayPropertyKeys | internal/schemautil/userconfig/handle.go:125-234 | the result's keys are exactly each type's key plus its `_string` companion, and companions are consistent |
| UserConfigHandle.SingleTypeKeys | internal/schemautil/userconfig/handle.go:128-131 | with one type the keys are n and, for ip_filter or one_of namespaces, n_string |
| UserConfigHandle.HandleAggregateTypeProperty | internal/schemautil/userconfig/handle.go:238-272 | object goes to the object handler with the property's required names, array to the array handler, anything else fails with the unknown-type error |

## Left out

- Locking: `sync.RWMutex`, the `sync.Once` singleton setup and the concurrent interleavings of callers are not modelled. Every operation is one atomic transition on one cache value.
- The semaphore: `semaphore.Weighted` is the boolean `permitHeld`. Another waiter holding it is an input.
- The refresh loop's termination: it has no termination argument in the code. A backend that answers without some queried names would make it loop forever. `BatchLoop` carries `fuel`, and running out is the separate outcome `LoopOutOfFuel`.
- Backend calls are inputs: `KafkaTopics.List`, `KafkaTopics.V2List`, `Organization.Get` and `Accounts.Get`.
- `getServicePlanParametersInternal`, `GetServicePlanParametersFromServiceResponse`, `GetServicePlanParametersFromSchema` and `dynamicDiskSpaceIsAllowedByPricing` are left out. They are thin API wrappers.
- `HumanReadableByteSize` and `ConvertToDiskSpaceMB` are left out. They do floating-point formatting and foreign byte-size parsing.
- `Conf` and all logging are left out.
- `aiven.KafkaTopic` keeps only the name and the state. No other field is read by the modelled code.
- Errors are kept as format strings with their arguments; `fmt` rendering is not modelled.
- TopicCache.DeleteFromQueueAndMarkMissing: removes every occurrence of the name, while Go's in-place loop differs on a queue holding duplicates. The two agree on duplicate-free queues (`InPlaceRemovalExact`), and every operation keeps queues duplicate-free (`Valid`).
- TopicCache.StoreByProjectAndServiceName: the same note as for `DeleteFromQueueAndMarkMissing` applies to the queue removal of the store loop.
- TopicWait.BatchLoop: on a 404 it applies the intended reconciliation `MarkQueuedMissing`, not the aliasing loop of kafka_topic_wait.go:120-124. So the loop's lemmas (`BatchLoopNotFound`, `BatchLoopFrame`, `BatchLoopPreservesInvariant`, `RefreshPreservesInvariant`, `PollPreservesInvariant`) describe the evidently intended behaviour. The code as written is `MarkQueuedMissingAsWritten`, and the Findings table shows where the two differ.
- TopicWait.NewWaiterAsWritten: multiplies the numbers of characters of the names, while Go's `len` counts UTF-8 bytes. The two agree on ASCII names; a name with multi-byte characters has a larger byte count, which only changes which long names hit the wrap-around. The product is wrapped to a 64-bit `int`; on 32-bit targets (386, arm) Go's `int` has 32 bits, and three names of 2^11 bytes already give 2^33, which wraps to 0.
- TopicWait.MarkLoopAsWritten: takes `slices.Delete` as in `golang.org/x/exp/slices` before it cleared the vacated tail. The Go 1.22 version (and x/exp versions that followed it) zeroes the tail, so the shifted-in cells read "" instead of stale names.
- UserConfigHandle.HandleArrayProperty: `TerraformTypes` is taken to return its two name lists as pairs of equal length. The model cannot show the index panic that shorter Aiven type names would cause.
- UserConfigHandle.HandleObjectProperty: the same `jen.Dict` keying note as for `FinishEntry` applies to the `Elem`, `DiffSuppressFunc` and `MaxItems` fields it adds to the converted property's fields.
- UserConfigHandle.FinishEntry: in Go a `jen.Dict` is keyed by freshly allocated statements, so setting a field twice adds a second entry. The model keys schema fields by name, so the later value replaces the earlier one.
- The jen code constructors are abstract `Code` values. So are `convertPropertyToSchema`, `convertPropertiesToSchemaMap`, `descriptionForProperty`, `isTerraformTypePrimitive`, `TerraformTypes`, `SlicedString` and `SliceToKeyedMap`.
- `internal/sdkprovider/service/m3db/m3db_test.go` is not part of this model. It holds acceptance-test fixtures whose validations live elsewhere in the provider.
- `internal/sdkprovider/service/organization/organization_data_source.go` is not part of this model. It is API glue.
- `internal/sdkprovider/service/project/util.go` is not part of this model. It is a wrapper over resource data around `NormalizeOrganizationID`, which is modelled.

## Findings

| source | as written | input that shows it | evidently intended | confidence | as-written member | corrected member |
|---|---|---|---|---|---|---|
| internal/sdkprovider/service/kafka/kafka_topic_wait.go:26 | rejects when the product of the three name lengths is 0 in 64-bit `int` arithmetic, which wraps | three non-empty names of 2^22 characters: the product 2^66 wraps to 0 and the valid names are rejected | reject exactly when one of the names is empty | not executed | TopicWait.NewWaiterAsWritten, TopicWait.NewWaiterOverflowRejectsLongNames | TopicWait.NewWaiter |
| internal/sdkprovider/service/kafka/kafka_topic_wait.go:120-124 | ranges over the batch slice, which shares its backing array with the cached queue; each `DeleteFromQueueAndMarkMissing` shifts that array in place (`slices.Delete` of `golang.org/x/exp/slices` without tail clearing), so later iterations read shifted names | queue [a, b, c] with V1 listing [c]: only a is marked missing and b, also absent from V1, stays queued (with a `slices.Delete` that zeroes the tail, b is still skipped and "" is marked missing as well) | every batch name absent from the V1 listing is marked missing and leaves the queue | not executed | TopicWait.MarkQueuedMissingAsWritten, TopicWait.AliasedMarkingSkipsNames | TopicWait.MarkQueuedMissing, TopicWait.MarkQueuedMissingSpec |

=== FILE: go_slices.dfy ===
/** Sequence helpers for the Go slice code of the topic cache: filtering, and the exact
    behaviour of Go's in-place "delete while ranging" idiom over a shared backing array. */
module GoSlices {
  import opened Outcomes

  /** No element occurs twice. */
  predicate NoDup(s: seq<string>)
  {
    forall i, j :: 0 <= i < j < |s| ==> s[i] != s[j]
  }

  /** The elements of `s` that are not in `drop`, in their original order. */
  function Except(s: seq<string>, drop: set<string>): (r: seq<string>)
    ensures |r| <= |s|
    ensures forall x :: x in r <==> x in s && x !in drop
    decreases |s|
  {
    if s == [] then []
    else (if s[0] in drop then [] else [s[0]]) + Except(s[1..], drop)
  }

  /** Removing one value from a slice: every occurrence of `x` disappears, the rest keep their order. */
  function Remove(s: seq<string>, x: string): (r: seq<string>)
    ensures x !in r
    ensures forall y :: y != x ==> (y in r <==> y in s)
  {
    Except(s, {x})
  }

  lemma {:induction false} ExceptNothing(s: seq<string>, drop: set<string>)
    requires forall x :: x in s ==> x !in drop
    ensures Except(s, drop) == s
    decreases |s|
  {
    if s != [] {
      ExceptNothing(s[1..], drop);
    }
  }

  lemma {:induction false} ExceptAppend(a: seq<string>, b: seq<string>, drop: set<string>)
    ensures Except(a + b, drop) == Except(a, drop) + Except(b, drop)
    decreases |a|
  {
    if a == [] {
      assert a + b == b;
    } else {
      assert (a + b)[1..] == a[1..] + b;
      ExceptAppend(a[1..], b, drop);
    }
  }

  /** Filtering twice is filtering once by the union of the dropped sets. */
  lemma {:induction false} ExceptTwice(s: seq<string>, a: set<string>, b: set<string>)
    ensures Except(Except(s, a), b) == Except(s, a + b)
    decreases |s|
  {
    if s != [] {
      ExceptTwice(s[1..], a, b);
      var head := if s[0] in a then [] else [s[0]];
      ExceptAppend(head, Except(s[1..], a), b);
      if s[0] !in a {
        assert Except(head, b) == (if s[0] in b then [] else [s[0]]) by {
          assert head[1..] == [];
        }
      }
    }
  }

  /** Filtering keeps a duplicate-free sequence duplicate-free. */
  lemma {:induction false} ExceptNoDup(s: seq<string>, drop: set<string>)
    requires NoDup(s)
    ensures NoDup(Except(s, drop))
    decreases |s|
  {
    if s != [] {
      assert NoDup(s[1..]) by {
        forall i, j | 0 <= i < j < |s[1..]| ensures s[1..][i] != s[1..][j] {
          assert s[1..][i] == s[i + 1] && s[1..][j] == s[j + 1];
        }
      }
      ExceptNoDup(s[1..], drop);
      var rest := Except(s[1..], drop);
      if s[0] !in drop {
        assert s[0] !in s[1..] by {
          forall k | 0 <= k < |s[1..]| ensures s[1..][k] != s[0] {
            assert s[1..][k] == s[k + 1];
          }
        }
        var r := [s[0]] + rest;
        forall i, j | 0 <= i < j < |r| ensures r[i] != r[j] {
          if i == 0 {
            assert r[j] == rest[j - 1];
          } else {
            assert r[i] == rest[i - 1] && r[j] == rest[j - 1];
          }
        }
      } else {
        assert [] + rest == rest;
      }
    }
  }

  /** Dropping a value that occurs in the sequence makes it strictly shorter. */
  lemma {:induction false} ExceptShrinks(s: seq<string>, drop: set<string>, x: string)
    requires x in s && x in drop
    ensures |Except(s, drop)| < |s|
    decreases |s|
  {
    if s[0] != x {
      ExceptShrinks(s[1..], drop, x);
    }
  }

  /** In a duplicate-free sequence, removing the value at position i removes exactly that position. */
  lemma {:induction false} RemoveAt(s: seq<string>, i: nat)
    requires NoDup(s) && i < |s|
    ensures Remove(s, s[i]) == s[..i] + s[i + 1..]
  {
    assert s == s[..i] + [s[i]] + s[i + 1..];
    ExceptAppend(s[..i] + [s[i]], s[i + 1..], {s[i]});
    ExceptAppend(s[..i], [s[i]], {s[i]});
    ExceptNothing(s[..i], {s[i]});
    ExceptNothing(s[i + 1..], {s[i]});
    assert Except([s[i]], {s[i]}) == [] by {
      assert [s[i]][1..] == [];
    }
  }

  /** The position of the first occurrence of x in s, if any; on a string this is
      `strings.Index` for a one-character separator. */
  function IndexOf<T(==)>(s: seq<T>, x: T): (r: Option<nat>)
    ensures r.None? <==> x !in s
    ensures r.Some? ==> r.value < |s| && s[r.value] == x && x !in s[..r.value]
    decreases |s|
  {
    if s == [] then None
    else if s[0] == x then Some(0)
    else match IndexOf(s[1..], x)
      case None => None
      case Some(k) => assert s[..k + 1] == [s[0]] + s[1..][..k]; Some(k + 1)
  }

  /** The backing array after `append(s[:i], s[i+1:]...)` on a slice of length `len` over
      `arr`: the cells i .. len-2 take the values of cells i+1 .. len-1, every other cell
      (in particular cell len-1) keeps its value. */
  function ShiftOut(arr: seq<string>, len: nat, i: nat): (r: seq<string>)
    requires i < len <= |arr|
    ensures |r| == |arr|
    ensures r[..len - 1] == arr[..i] + arr[i + 1..len]
    ensures forall k :: i <= k < len - 1 ==> r[k] == arr[k + 1]
    ensures forall k :: 0 <= k < |arr| && (k < i || len - 1 <= k) ==> r[k] == arr[k]
  {
    arr[..i] + arr[i + 1..len] + arr[len - 1..]
  }

  /** Go's `for i, v := range s { if v == x { s = append(s[:i], s[i+1:]...) } }`, continued
      from range index `j`. The range expression was a slice of length `n` over the backing
      array `arr`; every iteration reads the CURRENT contents of the array; `len` is the
      current length of `s`. None: the slice expression `s[i+1:]` is out of range, a panic.
      On success the result is the final backing array and the final length of `s`. */
  function RangeDelete(arr: seq<string>, len: nat, n: nat, j: nat, x: string): (r: Option<(seq<string>, nat)>)
    requires len <= |arr| && n <= |arr| && j <= n
    ensures r.Some? ==> |r.value.0| == |arr| && r.value.1 <= len
    decreases n - j
  {
    if j == n then Some((arr, len))
    else if arr[j] != x then RangeDelete(arr, len, n, j + 1, x)
    else if len < j + 1 then None
    else RangeDelete(ShiftOut(arr, len, j), len - 1, n, j + 1, x)
  }

  lemma {:induction false} RangeDeleteNoMatch(arr: seq<string>, len: nat, n: nat, j: nat, x: string)
    requires len <= |arr| && n <= |arr| && j <= n
    requires forall k :: j <= k < n ==> arr[k] != x
    ensures RangeDelete(arr, len, n, j, x) == Some((arr, len))
    decreases n - j
  {
    if j < n {
      RangeDeleteNoMatch(arr, len, n, j + 1, x);
    }
  }

  lemma {:induction false} RangeDeleteSkip(arr: seq<string>, len: nat, n: nat, j: nat, i: nat, x: string)
    requires len <= |arr| && n <= |arr| && j <= i <= n
    requires forall k :: j <= k < i ==> arr[k] != x
    ensures RangeDelete(arr, len, n, j, x) == RangeDelete(arr, len, n, i, x)
    decreases i - j
  {
    if j < i {
      RangeDeleteSkip(arr, len, n, j + 1, i, x);
    }
  }

  /** On a duplicate-free slice the in-place loop removes the one occurrence of x (if any),
      never panics, and leaves the slice holding exactly `Remove(s, x)`. */
  lemma RangeDeleteOnDistinct(arr: seq<string>, len: nat, x: string)
    requires len <= |arr| && NoDup(arr[..len])
    ensures RangeDelete(arr, len, len, 0, x).Some?
    ensures var (a, l) := RangeDelete(arr, len, len, 0, x).value;
            l <= |a| && a[..l] == Remove(arr[..len], x)
    ensures match IndexOf(arr[..len], x)
            case None => RangeDelete(arr, len, len, 0, x) == Some((arr, len))
            case Some(i) => RangeDelete(arr, len, len, 0, x) == Some((ShiftOut(arr, len, i), len - 1))
  {
    var s := arr[..len];
    match IndexOf(s, x)
    case None =>
      RangeDeleteNoMatch(arr, len, len, 0, x);
      ExceptNothing(s, {x});
    case Some(i) =>
      RangeDeleteSkip(arr, len, len, 0, i, x);
      var a := ShiftOut(arr, len, i);
      forall k | i + 1 <= k < len ensures a[k] != x {
        if k < len - 1 {
          assert a[k] == s[k + 1] && s[i] == x;
        } else {
          assert a[k] == s[k] && s[i] == x;
        }
      }
      RangeDeleteNoMatch(a, len - 1, len, i + 1, x);
      RemoveAt(s, i);
      assert s[..i] + s[i + 1..] == arr[..i] + arr[i + 1..len];
  }
}

=== FILE: outcomes.dfy ===
/** Values shared by every part of the provider model: optional values, Go error
    values and results that carry either a value or an error. */
module Outcomes {

  /** A Go pointer or `ok` flag: either nothing or a value. */
  datatype Option<+T> = None | Some(value: T)

  /** The Go error values the modelled code produces or receives.
      - ApiError: an `aiven.Error` returned by the vendor client (HTTP status and message);
      - Formatted: `fmt.Errorf(format, args...)` without a wrapped cause;
      - Wrapped: `fmt.Errorf(format, args..., cause)` using the `%w` verb;
      - Opaque: any other error a collaborator may return (transport failures, ...). */
  datatype Error =
    | ApiError(status: int, message: string)
    | Formatted(format: string, args: seq<string>)
    | Wrapped(format: string, args: seq<string>, cause: Error)
    | Opaque(description: string)

  /** A Go `(value, error)` pair in which exactly one side is meaningful. */
  datatype Result<+T> = Ok(value: T) | Fail(error: Error)

  /** `aiven.IsNotFound`: the error, or an error it wraps, is an API error with status 404. */
  predicate IsNotFound(e: Error)
  {
    match e
    case ApiError(status, _) => status == 404
    case Wrapped(_, _, cause) => IsNotFound(cause)
    case _ => false
  }
}

=== FILE: schema_helpers.dfy ===
/** Pure decision helpers shared by the resource schemas: the integration list sent when a
    service is created, the project VPC id, the maintenance window and the choice between
    organization and account ids. Resource data is passed in as the attribute values the
    helpers read; the vendor API lookups are passed in as functions. */
module SchemaHelpers {
  import opened Outcomes
  import GoSlices

  // ---------------------------------------------------------------------------------------
  // Service integrations

  /** One element of the `service_integrations` attribute. */
  datatype IntegrationDefinition = IntegrationDefinition(integrationType: string, sourceServiceName: string)

  /** `aiven.NewServiceIntegration`: the user config is a map from option name to value. */
  datatype NewServiceIntegration = NewServiceIntegration(
    integrationType: string,
    sourceService: Option<string>,
    userConfig: map<string, string>)

  /** One API integration per definition, in order; a nil attribute gives no integrations.
      Every integration names its source service and carries an empty user config. */
  function GetAPIServiceIntegrations(definitions: Option<seq<IntegrationDefinition>>): (r: seq<NewServiceIntegration>)
    ensures definitions.None? ==> r == []
    ensures definitions.Some? ==> |r| == |definitions.value|
    ensures forall i :: 0 <= i < |r| ==> r[i].sourceService.Some? && r[i].userConfig == map[]
  {
    match definitions
    case None => []
    case Some(list) => ToIntegrations(list)
  }

  function ToIntegrations(list: seq<IntegrationDefinition>): (r: seq<NewServiceIntegration>)
    ensures |r| == |list|
    ensures forall i :: 0 <= i < |r| ==> r[i].sourceService.Some? && r[i].userConfig == map[]
    decreases |list|
  {
    if list == [] then []
    else [NewServiceIntegration(list[0].integrationType, Some(list[0].sourceServiceName), map[])]
         + ToIntegrations(list[1..])
  }

  /** The definition an integration was built from. */
  function DefinitionOf(integration: NewServiceIntegration): IntegrationDefinition
    requires integration.sourceService.Some?
  {
    IntegrationDefinition(integration.integrationType, integration.sourceService.value)
  }

  /** Reading the definitions back from the integrations gives the attribute's elements, in
      their order: the mapping copies both fields and neither drops nor reorders. */
  lemma {:induction false} IntegrationsRoundTrip(list: seq<IntegrationDefinition>)
    ensures var r := GetAPIServiceIntegrations(Some(list));
            forall i :: 0 <= i < |list| ==> DefinitionOf(r[i]) == list[i]
    decreases |list|
  {
    if list != [] {
      IntegrationsRoundTrip(list[1..]);
      var r := ToIntegrations(list);
      forall i | 0 <= i < |list| ensures DefinitionOf(r[i]) == list[i] {
        if i > 0 {
          assert r[i] == ToIntegrations(list[1..])[i - 1];
          assert list[i] == list[1..][i - 1];
        }
      }
    }
  }

  /** The list of a concatenated attribute is the concatenation of the lists. */
  lemma {:induction false} IntegrationsAppend(a: seq<IntegrationDefinition>, b: seq<IntegrationDefinition>)
    ensures GetAPIServiceIntegrations(Some(a + b)) == GetAPIServiceIntegrations(Some(a)) + GetAPIServiceIntegrations(Some(b))
    decreases |a|
  {
    if a == [] {
      assert a + b == b;
    } else {
      assert (a + b)[1..] == a[1..] + b;
      IntegrationsAppend(a[1..], b);
    }
  }

  // ---------------------------------------------------------------------------------------
  // Project VPC id

  /** `strings.SplitN(s, "/", 2)`: the whole string when it has no slash, otherwise the part
      before the first slash and everything after it. */
  function SplitOnFirstSlash(s: string): (r: seq<string>)
    ensures |r| == 1 || |r| == 2
    ensures |r| == 1 <==> '/' !in s
    ensures |r| == 1 ==> r[0] == s
    ensures |r| == 2 ==> '/' !in r[0] && s == r[0] + "/" + r[1]
  {
    match GoSlices.IndexOf(s, '/')
    case None => [s]
    case Some(i) =>
      assert s == s[..i] + "/" + s[i + 1..] by {
        assert s == s[..i] + [s[i]] + s[i + 1..];
      }
      [s[..i], s[i + 1..]]
  }

  const InvalidVPCIdFormat := "invalid project_vpc_id, should have the following format {project_name}/{project_vpc_id}"

  /** An empty id gives no VPC; an id without a slash is an error; otherwise the VPC id is
      everything after the first slash (it may itself contain slashes or be empty). */
  function GetProjectVPCIdPointer(vpcID: string): (r: Result<Option<string>>)
    ensures vpcID == [] <==> r == Ok(None)
    ensures r.Fail? <==> vpcID != [] && '/' !in vpcID
    ensures r.Fail? ==> r.error == Formatted(InvalidVPCIdFormat, [])
    ensures r.Ok? && r.value.Some? ==>
              exists project :: '/' !in project && vpcID == project + "/" + r.value.value
  {
    if |vpcID| == 0 then Ok(None)
    else
      var parts := SplitOnFirstSlash(vpcID);
      if |parts| != 2 then Fail(Formatted(InvalidVPCIdFormat, []))
      else Ok(Some(parts[1]))
  }

  /** A project name without slashes joined to any VPC id by "/" gives that VPC id back. */
  lemma VPCIdRoundTrip(project: string, vpc: string)
    requires '/' !in project
    ensures GetProjectVPCIdPointer(project + "/" + vpc) == Ok(Some(vpc))
  {
    var s := project + "/" + vpc;
    assert s[|project|] == '/';
    var i := GoSlices.IndexOf(s, '/').value;
    assert s[..|project|] == project;
    assert i == |project|;
    assert s[i + 1..] == vpc;
  }

  // ---------------------------------------------------------------------------------------
  // Maintenance window

  datatype MaintenanceWindow = MaintenanceWindow(dayOfWeek: string, timeOfDay: string)

  /** A window exactly when the day is set and is not "never" and the time is set; it carries
      both values unchanged. */
  function GetMaintenanceWindow(dow: string, time: string): (r: Option<MaintenanceWindow>)
    ensures r.Some? <==> dow != "never" && dow != [] && time != []
    ensures r.Some? ==> r.value.dayOfWeek == dow && r.value.timeOfDay == time
  {
    if dow == "never" then None
    else if |dow| > 0 && |time| > 0 then Some(MaintenanceWindow(dow, time))
    else None
  }

  /** "never" is never sent back, whatever the time. */
  lemma NeverHasNoWindow(time: string)
    ensures GetMaintenanceWindow("never", time) == None
  {
  }

  // ---------------------------------------------------------------------------------------
  // Organization and account ids

  /** The lookup results the helpers read. */
  datatype Organization = Organization(accountId: string)
  datatype Account = Account(organizationId: string)

  /** An organization id starts with "org". */
  predicate IsStringAnOrganizationID(s: string)
  {
    "org" <= s
  }

  lemma OrganizationIDPrefix(s: string)
    ensures IsStringAnOrganizationID(s) <==> |s| >= 3 && s[0] == 'o' && s[1] == 'r' && s[2] == 'g'
  {
    if |s| >= 3 && s[0] == 'o' && s[1] == 'r' && s[2] == 'g' {
      assert s[..3] == "org";
    }
  }

  /** An organization id is replaced by the account id the lookup returns (or fails with the
      lookup's error); any other id is kept as it is. */
  function NormalizeOrganizationID(id: string, organizationGet: string -> Result<Organization>): (r: Result<string>)
    ensures !IsStringAnOrganizationID(id) ==> r == Ok(id)
    ensures IsStringAnOrganizationID(id) && organizationGet(id).Fail? ==> r == Fail(organizationGet(id).error)
    ensures IsStringAnOrganizationID(id) && organizationGet(id).Ok? ==> r == Ok(organizationGet(id).value.accountId)
  {
    if IsStringAnOrganizationID(id) then
      match organizationGet(id)
      case Fail(e) => Fail(e)
      case Ok(org) => Ok(org.accountId)
    else Ok(id)
  }

  /** An account id is returned without a lookup: the result does not depend on the API. */
  lemma NormalizeAccountIDWithoutLookup(id: string, get1: string -> Result<Organization>, get2: string -> Result<Organization>)
    requires !IsStringAnOrganizationID(id)
    ensures NormalizeOrganizationID(id, get1) == NormalizeOrganizationID(id, get2) == Ok(id)
  {
  }

  /** The id to keep in the state: nothing when no account id is known; the account id when
      the state did not hold an organization id; otherwise the account's organization id,
      falling back to the account id when the account has none. Lookup errors are returned. */
  function DetermineMixedOrganizationConstraintIDToStore(stateID: string, accountID: string, accountsGet: string -> Result<Account>)
    : (r: Result<string>)
    ensures accountID == [] ==> r == Ok("")
    ensures accountID != [] && !IsStringAnOrganizationID(stateID) ==> r == Ok(accountID)
    ensures accountID != [] && IsStringAnOrganizationID(stateID) ==>
              match accountsGet(accountID)
              case Fail(e) => r == Fail(e)
              case Ok(account) => r == Ok(if account.organizationId == [] then accountID else account.organizationId)
  {
    if |accountID| == 0 then Ok("")
    else if !IsStringAnOrganizationID(stateID) then Ok(accountID)
    else
      match accountsGet(accountID)
      case Fail(e) => Fail(e)
      case Ok(account) =>
        if |account.organizationId| == 0 then Ok(accountID) else Ok(account.organizationId)
  }

  /** The stored id is empty only when no account id is known, and is always either the
      account id or the organization id the lookup returned for it. */
  lemma StoredIDIsAccountOrOrganization(stateID: string, accountID: string, accountsGet: string -> Result<Account>)
    ensures var r := DetermineMixedOrganizationConstraintIDToStore(stateID, accountID, accountsGet);
            r.Ok? ==>
              && (r.value == [] <==> accountID == [])
              && (r.value == accountID
                  || (accountsGet(accountID).Ok? && r.value == accountsGet(accountID).value.organizationId))
  {
  }

  /** Without an organization id in the state the account lookup is never made. */
  lemma DetermineWithoutLookup(stateID: string, accountID: string, get1: string -> Result<Account>, get2: string -> Result<Account>)
    requires accountID == [] || !IsStringAnOrganizationID(stateID)
    ensures DetermineMixedOrganizationConstraintIDToStore(stateID, accountID, get1)
         == DetermineMixedOrganizationConstraintIDToStore(stateID, accountID, get2)
  {
  }
}

=== FILE: topic_cache.dfy ===
/** The process-wide Kafka topic cache: four maps keyed by the concatenation of the project
    and service names, holding the cached topics, the queue of names awaiting a batch
    lookup, the names confirmed missing and the service's V1 topic listing.
    Every operation is a pure transition from one cache value to the next. */
module TopicCache {
  import opened Outcomes
  import opened GoSlices

  /** `aiven.KafkaTopic`, reduced to the fields the waiter reads. */
  datatype Topic = Topic(topicName: string, state: string)

  /** `aiven.KafkaListTopic`, an entry of the V1 listing. */
  datatype ListTopic = ListTopic(topicName: string)

  datatype Cache = Cache(
    internal: map<string, map<string, Topic>>,
    inQueue: map<string, seq<string>>,
    missing: map<string, seq<string>>,
    v1list: map<string, seq<string>>)

  const Configuring := "CONFIGURING"

  /** The zero `aiven.KafkaTopic` with its state set to CONFIGURING. */
  const Placeholder := Topic("", Configuring)

  /** The map key: plain string concatenation, so ("ab", "c") and ("a", "bc") share a key. */
  function Key(projectName: string, serviceName: string): string
  {
    projectName + serviceName
  }

  /** The freshly created cache: four empty maps. */
  function Empty(): Cache
  {
    Cache(map[], map[], map[], map[])
  }

  /** Reading a map of slices in Go: an absent key reads as the nil (empty) slice. */
  function SliceAt(m: map<string, seq<string>>, k: string): seq<string>
  {
    if k in m then m[k] else []
  }

  /** The topics cached under a key; an absent key reads as the nil (empty) map. */
  function TopicsAt(c: Cache, k: string): map<string, Topic>
  {
    if k in c.internal then c.internal[k] else map[]
  }

  /** The names of a V2 batch of topics, in batch order. */
  function TopicNames(list: seq<Topic>): (r: seq<string>)
    ensures |r| == |list|
    ensures forall i :: 0 <= i < |list| ==> r[i] == list[i].topicName
  {
    seq(|list|, i requires 0 <= i < |list| => list[i].topicName)
  }

  /** The names of a V1 listing, in listing order; a listing entry is a different record
      from a batch topic, hence a function of its own. */
  function ListNames(list: seq<ListTopic>): (r: seq<string>)
    ensures |r| == |list|
    ensures forall i :: 0 <= i < |list| ==> r[i] == list[i].topicName
  {
    seq(|list|, i requires 0 <= i < |list| => list[i].topicName)
  }

  /** The set of names in a batch of topics. */
  function NameSet(list: seq<Topic>): set<string>
  {
    set i | 0 <= i < |list| :: list[i].topicName
  }

  /** Every queue is duplicate-free and holds no name already cached under the same key. */
  ghost predicate Valid(c: Cache)
  {
    forall k :: k in c.inQueue ==>
      && NoDup(c.inQueue[k])
      && forall x :: x in c.inQueue[k] ==> x !in TopicsAt(c, k)
  }

  /** No queued name is also recorded as missing under the same key. */
  ghost predicate MissingNotQueued(c: Cache)
  {
    forall k, x :: x in SliceAt(c.inQueue, k) ==> x !in SliceAt(c.missing, k)
  }

  function LoadByProjectAndServiceName(c: Cache, projectName: string, serviceName: string)
    : (r: Option<map<string, Topic>>)
    ensures r.Some? <==> Key(projectName, serviceName) in c.internal
    ensures r.Some? ==> r.value == TopicsAt(c, Key(projectName, serviceName))
  {
    var k := Key(projectName, serviceName);
    if k in c.internal then Some(c.internal[k]) else None
  }

  /** The cached topic and a found flag; the CONFIGURING placeholder when either the key or
      the topic is absent. */
  function LoadByTopicName(c: Cache, projectName: string, serviceName: string, topicName: string)
    : (r: (Topic, bool))
    ensures r.1 <==> topicName in TopicsAt(c, Key(projectName, serviceName))
    ensures r.1 ==> r.0 == TopicsAt(c, Key(projectName, serviceName))[topicName]
    ensures !r.1 ==> r.0 == Placeholder && r.0.state == Configuring
  {
    var k := Key(projectName, serviceName);
    if k !in c.internal then (Placeholder, false)
    else if topicName !in c.internal[k] then (Placeholder, false)
    else (c.internal[k][topicName], true)
  }

  /** Drops the cached topics of one key; the queue, missing and V1 maps are not touched. */
  function DeleteByProjectAndServiceName(c: Cache, projectName: string, serviceName: string): (r: Cache)
    ensures r.internal.Keys == c.internal.Keys - {Key(projectName, serviceName)}
    ensures forall k :: k in r.internal ==> r.internal[k] == c.internal[k]
    ensures r.inQueue == c.inQueue && r.missing == c.missing && r.v1list == c.v1list
  {
    c.(internal := c.internal - {Key(projectName, serviceName)})
  }

  /** One iteration of the store loop: cache the topic under its name, then take that name
      out of the queue (the queue key is only written when it already exists). */
  function StoreOne(c: Cache, k: string, topic: Topic): Cache
  {
    c.(internal := c.internal[k := TopicsAt(c, k)[topic.topicName := topic]],
       inQueue := if k in c.inQueue then c.inQueue[k := Remove(c.inQueue[k], topic.topicName)] else c.inQueue)
  }

  function StoreAll(c: Cache, k: string, list: seq<Topic>): Cache
    decreases |list|
  {
    if list == [] then c else StoreAll(StoreOne(c, k, list[0]), k, list[1..])
  }

  /** Caches a batch of topics under their names and removes each of them from the queue. */
  function StoreByProjectAndServiceName(c: Cache, projectName: string, serviceName: string, list: seq<Topic>): (r: Cache)
    ensures list == [] ==> r == c
  {
    if |list| == 0 then c else StoreAll(c, Key(projectName, serviceName), list)
  }

  /** Enqueues a name unless it is already queued or cached under the key; `missing` is not consulted. */
  function AddToQueue(c: Cache, projectName: string, serviceName: string, topicName: string): (r: Cache)
    ensures var k := Key(projectName, serviceName);
            topicName in SliceAt(c.inQueue, k) || topicName in TopicsAt(c, k) ==> r == c
    ensures var k := Key(projectName, serviceName);
            topicName !in SliceAt(c.inQueue, k) && topicName !in TopicsAt(c, k) ==>
              SliceAt(r.inQueue, k) == SliceAt(c.inQueue, k) + [topicName]
    ensures forall k :: k != Key(projectName, serviceName) ==> SliceAt(r.inQueue, k) == SliceAt(c.inQueue, k)
    ensures r.internal == c.internal && r.missing == c.missing && r.v1list == c.v1list
  {
    var k := Key(projectName, serviceName);
    var queue := SliceAt(c.inQueue, k);
    if topicName in queue || topicName in TopicsAt(c, k) then c
    else c.(inQueue := c.inQueue[k := queue + [topicName]])
  }

  /** Takes the name out of the queue and appends it to the missing list, even when it is
      already listed there. */
  function DeleteFromQueueAndMarkMissing(c: Cache, projectName: string, serviceName: string, topicName: string): (r: Cache)
    ensures var k := Key(projectName, serviceName);
            && topicName !in SliceAt(r.inQueue, k)
            && (forall x :: x != topicName ==> (x in SliceAt(r.inQueue, k) <==> x in SliceAt(c.inQueue, k)))
            && SliceAt(r.missing, k) == SliceAt(c.missing, k) + [topicName]
    ensures forall k :: k != Key(projectName, serviceName) ==>
              SliceAt(r.inQueue, k) == SliceAt(c.inQueue, k) && SliceAt(r.missing, k) == SliceAt(c.missing, k)
    ensures r.internal == c.internal && r.v1list == c.v1list
  {
    var k := Key(projectName, serviceName);
    c.(inQueue := if k in c.inQueue then c.inQueue[k := Remove(c.inQueue[k], topicName)] else c.inQueue,
       missing := c.missing[k := SliceAt(c.missing, k) + [topicName]])
  }

  /** The key's queue after the removal is the old queue without the name, in order. */
  lemma DeleteFromQueueSlice(c: Cache, projectName: string, serviceName: string, topicName: string)
    ensures SliceAt(DeleteFromQueueAndMarkMissing(c, projectName, serviceName, topicName).inQueue, Key(projectName, serviceName))
         == Remove(SliceAt(c.inQueue, Key(projectName, serviceName)), topicName)
  {
  }

  function GetMissing(c: Cache, projectName: string, serviceName: string): seq<string>
  {
    SliceAt(c.missing, Key(projectName, serviceName))
  }

  /** The batch to query next: the first 99 queued names once the queue holds 100 or more,
      the whole queue otherwise. */
  function GetQueue(c: Cache, projectName: string, serviceName: string): (r: seq<string>)
    ensures var queue := SliceAt(c.inQueue, Key(projectName, serviceName));
            && r <= queue
            && |r| == (if |queue| < 99 then |queue| else 99)
  {
    var queue := SliceAt(c.inQueue, Key(projectName, serviceName));
    if |queue| >= 100 then queue[..99] else queue
  }

  /** Empties `internal`; the other three maps lose only the keys `internal` had. */
  function FlushTopicCache(c: Cache): (r: Cache)
    ensures r.internal == map[]
    ensures forall k :: k in r.inQueue <==> k in c.inQueue && k !in c.internal
    ensures forall k :: k in r.missing <==> k in c.missing && k !in c.internal
    ensures forall k :: k in r.v1list <==> k in c.v1list && k !in c.internal
    ensures forall k :: k in r.inQueue ==> r.inQueue[k] == c.inQueue[k]
    ensures forall k :: k in r.missing ==> r.missing[k] == c.missing[k]
    ensures forall k :: k in r.v1list ==> r.v1list[k] == c.v1list[k]
  {
    Cache(map[], c.inQueue - c.internal.Keys, c.missing - c.internal.Keys, c.v1list - c.internal.Keys)
  }

  /** Appends the listed names, in order, to the V1 listing already held for the key. */
  function SetV1List(c: Cache, projectName: string, serviceName: string, list: seq<ListTopic>): (r: Cache)
    ensures var k := Key(projectName, serviceName);
            && SliceAt(r.v1list, k) == SliceAt(c.v1list, k) + ListNames(list)
            && forall k' :: k' != k ==> SliceAt(r.v1list, k') == SliceAt(c.v1list, k')
    ensures r.internal == c.internal && r.inQueue == c.inQueue && r.missing == c.missing
  {
    var k := Key(projectName, serviceName);
    if list == [] then c
    else c.(v1list := c.v1list[k := SliceAt(c.v1list, k) + ListNames(list)])
  }

  function GetV1List(c: Cache, projectName: string, serviceName: string): seq<string>
  {
    SliceAt(c.v1list, Key(projectName, serviceName))
  }

  /** The freshly created cache holds nothing: every read gives the nil slice or no entry. */
  lemma EmptyReadsNothing(projectName: string, serviceName: string, topicName: string)
    ensures LoadByProjectAndServiceName(Empty(), projectName, serviceName).None?
    ensures !LoadByTopicName(Empty(), projectName, serviceName, topicName).1
    ensures GetQueue(Empty(), projectName, serviceName) == []
    ensures GetMissing(Empty(), projectName, serviceName) == []
    ensures GetV1List(Empty(), projectName, serviceName) == []
  {
  }

  /** The getters read back what the writers append: marking adds the name at the end of
      the missing list, and a V1 listing adds its names at the end of the V1 list. */
  lemma GettersReadBack(c: Cache, projectName: string, serviceName: string, topicName: string, list: seq<ListTopic>)
    ensures GetMissing(DeleteFromQueueAndMarkMissing(c, projectName, serviceName, topicName), projectName, serviceName)
         == GetMissing(c, projectName, serviceName) + [topicName]
    ensures GetV1List(SetV1List(c, projectName, serviceName, list), projectName, serviceName)
         == GetV1List(c, projectName, serviceName) + ListNames(list)
  {
  }

  // ---------------------------------------------------------------------------------------
  // Properties of the store loop
  lemma NameSetCons(list: seq<Topic>)
    requires list != []
    ensures NameSet(list) == {list[0].topicName} + NameSet(list[1..])
  {
    forall x | x in NameSet(list) ensures x in {list[0].topicName} + NameSet(list[1..]) {
      var i :| 0 <= i < |list| && list[i].topicName == x;
      if i > 0 { assert list[1..][i - 1].topicName == x; }
    }
    forall x | x in NameSet(list[1..]) ensures x in NameSet(list) {
      var i :| 0 <= i < |list[1..]| && list[1..][i].topicName == x;
      assert list[i + 1].topicName == x;
    }
  }

  /** What the store loop does to `internal`. */
  lemma {:induction false} StoreAllTopics(c: Cache, k: string, list: seq<Topic>)
    ensures var r := StoreAll(c, k, list);
            && r.internal - {k} == c.internal - {k}
            && (list != [] ==> k in r.internal)
            && (list == [] ==> r == c)
            && TopicsAt(r, k).Keys == TopicsAt(c, k).Keys + NameSet(list)
            && (forall x :: x in TopicsAt(c, k) && x !in NameSet(list) ==> TopicsAt(r, k)[x] == TopicsAt(c, k)[x])
            && (forall x :: x in NameSet(list) ==> TopicsAt(r, k)[x] in list && TopicsAt(r, k)[x].topicName == x)
    decreases |list|
  {
    if list == [] {
      assert NameSet(list) == {};
    } else {
      var c1 := StoreOne(c, k, list[0]);
      StoreAllTopics(c1, k, list[1..]);
      NameSetCons(list);
    }
  }

  /** A name the batch holds more than once ends up with its last topic: each assignment
      of the loop overwrites the previous one. */
  lemma {:induction false} StoreAllLastWins(c: Cache, k: string, list: seq<Topic>, i: nat)
    requires i < |list|
    requires forall j :: i < j < |list| ==> list[j].topicName != list[i].topicName
    ensures list[i].topicName in TopicsAt(StoreAll(c, k, list), k)
    ensures TopicsAt(StoreAll(c, k, list), k)[list[i].topicName] == list[i]
    decreases |list|
  {
    var c1 := StoreOne(c, k, list[0]);
    StoreAllTopics(c, k, list);
    assert list[i].topicName in NameSet(list);
    if i == 0 {
      assert list[0].topicName !in NameSet(list[1..]);
      StoreAllTopics(c1, k, list[1..]);
    } else {
      forall j | i - 1 < j < |list[1..]| ensures list[1..][j].topicName != list[1..][i - 1].topicName {
        assert list[1..][j] == list[j + 1];
      }
      StoreAllLastWins(c1, k, list[1..], i - 1);
    }
  }

  /** What the store loop does to the queue and the other maps. */
  lemma {:induction false} StoreAllQueue(c: Cache, k: string, list: seq<Topic>)
    ensures var r := StoreAll(c, k, list);
            && r.inQueue - {k} == c.inQueue - {k}
            && (k in r.inQueue <==> k in c.inQueue)
            && SliceAt(r.inQueue, k) == Except(SliceAt(c.inQueue, k), NameSet(list))
            && r.missing == c.missing && r.v1list == c.v1list
    decreases |list|
  {
    if list == [] {
      assert NameSet(list) == {};
      ExceptNothing(SliceAt(c.inQueue, k), {});
    } else {
      var c1 := StoreOne(c, k, list[0]);
      StoreAllQueue(c1, k, list[1..]);
      NameSetCons(list);
      ExceptTwice(SliceAt(c.inQueue, k), {list[0].topicName}, NameSet(list[1..]));
    }
  }

  /** After a store every stored topic is cached under its name and no longer queued; the
      queue keeps its other entries in their order; entries cached under other names stay. */
  lemma StoreEffect(c: Cache, projectName: string, serviceName: string, list: seq<Topic>)
    ensures var r := StoreByProjectAndServiceName(c, projectName, serviceName, list);
            var k := Key(projectName, serviceName);
            && (forall i :: 0 <= i < |list| ==>
                  && LoadByTopicName(r, projectName, serviceName, list[i].topicName).1
                  && list[i].topicName !in SliceAt(r.inQueue, k))
            && SliceAt(r.inQueue, k) == Except(SliceAt(c.inQueue, k), NameSet(list))
            && (forall x :: x in TopicsAt(c, k) && x !in NameSet(list) ==>
                  x in TopicsAt(r, k) && TopicsAt(r, k)[x] == TopicsAt(c, k)[x])
            && r.missing == c.missing && r.v1list == c.v1list
  {
    var k := Key(projectName, serviceName);
    StoreAllTopics(c, k, list);
    StoreAllQueue(c, k, list);
    var r := StoreByProjectAndServiceName(c, projectName, serviceName, list);
    forall i | 0 <= i < |list| ensures list[i].topicName in TopicsAt(r, k) {
      assert list[i].topicName in NameSet(list);
    }
  }

  /** A stored name loads back as the last topic of the batch with that name. */
  lemma StoreLoadsLastTopic(c: Cache, projectName: string, serviceName: string, list: seq<Topic>, i: nat)
    requires i < |list|
    requires forall j :: i < j < |list| ==> list[j].topicName != list[i].topicName
    ensures LoadByTopicName(StoreByProjectAndServiceName(c, projectName, serviceName, list), projectName, serviceName, list[i].topicName)
         == (list[i], true)
  {
    var k := Key(projectName, serviceName);
    StoreAllTopics(c, k, list);
    StoreAllLastWins(c, k, list, i);
    assert list[i].topicName in NameSet(list);
  }

  /** When the batch holds one topic per name, each stored name reads back as exactly that topic. */
  lemma StoreThenLoad(c: Cache, projectName: string, serviceName: string, list: seq<Topic>, i: nat)
    requires i < |list|
    requires NoDup(TopicNames(list))
    ensures var r := StoreByProjectAndServiceName(c, projectName, serviceName, list);
            && LoadByProjectAndServiceName(r, projectName, serviceName).Some?
            && LoadByTopicName(r, projectName, serviceName, list[i].topicName) == (list[i], true)
  {
    var k := Key(projectName, serviceName);
    StoreAllTopics(c, k, list);
    var r := StoreAll(c, k, list);
    var x := list[i].topicName;
    assert x in NameSet(list);
    var t := TopicsAt(r, k)[x];
    assert t in list && t.topicName == x;
    var j :| 0 <= j < |list| && list[j] == t;
    assert TopicNames(list)[j] == x && TopicNames(list)[i] == x;
  }

  // ---------------------------------------------------------------------------------------
  // Queue properties

  /** Enqueuing the same name twice leaves the cache as enqueuing it once. */
  lemma AddToQueueIdempotent(c: Cache, projectName: string, serviceName: string, topicName: string)
    ensures var once := AddToQueue(c, projectName, serviceName, topicName);
            AddToQueue(once, projectName, serviceName, topicName) == once
  {
  }

  /** A name recorded as missing is still enqueued when it is neither queued nor cached. */
  lemma AddToQueueIgnoresMissing(c: Cache, projectName: string, serviceName: string, topicName: string)
    requires topicName in GetMissing(c, projectName, serviceName)
    requires topicName !in TopicsAt(c, Key(projectName, serviceName))
    ensures topicName in SliceAt(AddToQueue(c, projectName, serviceName, topicName).inQueue, Key(projectName, serviceName))
    ensures !MissingNotQueued(AddToQueue(c, projectName, serviceName, topicName))
  {
    var r := AddToQueue(c, projectName, serviceName, topicName);
    var k := Key(projectName, serviceName);
    assert topicName in SliceAt(r.inQueue, k) && topicName in SliceAt(r.missing, k);
  }

  /** Marking a name missing twice lists it twice. */
  lemma MarkMissingAccumulates(c: Cache, projectName: string, serviceName: string, topicName: string)
    ensures var twice := DeleteFromQueueAndMarkMissing(
              DeleteFromQueueAndMarkMissing(c, projectName, serviceName, topicName),
              projectName, serviceName, topicName);
            GetMissing(twice, projectName, serviceName) == GetMissing(c, projectName, serviceName) + [topicName, topicName]
  {
  }

  /** In a duplicate-free queue, marking a queued name missing removes exactly its position. */
  lemma MarkMissingKeepsOrder(c: Cache, projectName: string, serviceName: string, i: nat)
    requires var q := SliceAt(c.inQueue, Key(projectName, serviceName)); NoDup(q) && i < |q|
    ensures var q := SliceAt(c.inQueue, Key(projectName, serviceName));
            var r := DeleteFromQueueAndMarkMissing(c, projectName, serviceName, q[i]);
            SliceAt(r.inQueue, Key(projectName, serviceName)) == q[..i] + q[i + 1..]
  {
    RemoveAt(SliceAt(c.inQueue, Key(projectName, serviceName)), i);
  }

  /** A queue of 100 or more names yields exactly 99 of them. */
  lemma GetQueueCapsAt99(c: Cache, projectName: string, serviceName: string)
    requires |SliceAt(c.inQueue, Key(projectName, serviceName))| >= 100
    ensures |GetQueue(c, projectName, serviceName)| == 99
  {
  }

  /** Flushing keeps the queue of a key that had nothing cached. */
  lemma FlushKeepsUncachedKeys(c: Cache, k: string)
    requires k in c.inQueue && k !in c.internal
    ensures k in FlushTopicCache(c).inQueue
    ensures FlushTopicCache(c).inQueue[k] == c.inQueue[k]
  {
  }

  /** Two project/service pairs with the same concatenation share one cache entry. */
  lemma KeyCollision(c: Cache, topicName: string)
    ensures LoadByTopicName(c, "ab", "c", topicName) == LoadByTopicName(c, "a", "bc", topicName)
  {
    assert Key("ab", "c") == Key("a", "bc");
  }

  // ---------------------------------------------------------------------------------------
  // The cache invariant

  lemma EmptyValid()
    ensures Valid(Empty()) && MissingNotQueued(Empty())
  {
  }

  lemma AddToQueuePreservesValid(c: Cache, projectName: string, serviceName: string, topicName: string)
    requires Valid(c)
    ensures Valid(AddToQueue(c, projectName, serviceName, topicName))
  {
    var k := Key(projectName, serviceName);
    var q := SliceAt(c.inQueue, k);
    var r := AddToQueue(c, projectName, serviceName, topicName);
    if topicName !in q && topicName !in TopicsAt(c, k) {
      var q' := q + [topicName];
      assert NoDup(q') by {
        forall i, j | 0 <= i < j < |q'| ensures q'[i] != q'[j] {
          if j == |q| { assert q'[i] == q[i]; }
        }
      }
    }
  }

  lemma StorePreservesValid(c: Cache, projectName: string, serviceName: string, list: seq<Topic>)
    requires Valid(c)
    ensures Valid(StoreByProjectAndServiceName(c, projectName, serviceName, list))
  {
    var k := Key(projectName, serviceName);
    if list != [] {
      StoreAllTopics(c, k, list);
      StoreAllQueue(c, k, list);
      var r := StoreAll(c, k, list);
      forall k' | k' in r.inQueue
        ensures NoDup(r.inQueue[k']) && forall x :: x in r.inQueue[k'] ==> x !in TopicsAt(r, k')
      {
        if k' == k {
          ExceptNoDup(c.inQueue[k], NameSet(list));
        } else {
          assert k' in r.inQueue - {k};
          assert r.inQueue[k'] == (r.inQueue - {k})[k'] == (c.inQueue - {k})[k'] == c.inQueue[k'];
          assert TopicsAt(r, k') == TopicsAt(c, k') by {
            assert k' in r.internal <==> k' in r.internal - {k};
            assert k' in c.internal <==> k' in c.internal - {k};
            if k' in c.internal {
              assert r.internal[k'] == (r.internal - {k})[k'] == (c.internal - {k})[k'] == c.internal[k'];
            }
          }
        }
      }
    }
  }

  lemma MarkMissingPreservesValid(c: Cache, projectName: string, serviceName: string, topicName: string)
    requires Valid(c)
    ensures Valid(DeleteFromQueueAndMarkMissing(c, projectName, serviceName, topicName))
  {
    var k := Key(projectName, serviceName);
    if k in c.inQueue {
      ExceptNoDup(c.inQueue[k], {topicName});
    }
  }

  lemma OtherOperationsPreserveValid(c: Cache, projectName: string, serviceName: string, list: seq<ListTopic>)
    requires Valid(c)
    ensures Valid(DeleteByProjectAndServiceName(c, projectName, serviceName))
    ensures Valid(FlushTopicCache(c))
    ensures Valid(SetV1List(c, projectName, serviceName, list))
  {
  }

  /** Storing touches the queue and the cached topics of its own key only. */
  lemma StoreOtherKeys(c: Cache, projectName: string, serviceName: string, list: seq<Topic>)
    ensures var r := StoreByProjectAndServiceName(c, projectName, serviceName, list);
            forall k' :: k' != Key(projectName, serviceName) ==>
              SliceAt(r.inQueue, k') == SliceAt(c.inQueue, k') && TopicsAt(r, k') == TopicsAt(c, k')
  {
    var k := Key(projectName, serviceName);
    if list != [] {
      StoreAllTopics(c, k, list);
      StoreAllQueue(c, k, list);
      var r := StoreAll(c, k, list);
      forall k' | k' != k ensures SliceAt(r.inQueue, k') == SliceAt(c.inQueue, k') && TopicsAt(r, k') == TopicsAt(c, k') {
        assert k' in r.inQueue <==> k' in r.inQueue - {k};
        assert k' in c.inQueue <==> k' in c.inQueue - {k};
        if k' in c.inQueue {
          assert r.inQueue[k'] == (r.inQueue - {k})[k'] == (c.inQueue - {k})[k'] == c.inQueue[k'];
        }
        assert k' in r.internal <==> k' in r.internal - {k};
        assert k' in c.internal <==> k' in c.internal - {k};
        if k' in c.internal {
          assert r.internal[k'] == (r.internal - {k})[k'] == (c.internal - {k})[k'] == c.internal[k'];
        }
      }
    }
  }

  /** A store leaves the V1 listings alone. */
  lemma StoreKeepsV1List(c: Cache, projectName: string, serviceName: string, list: seq<Topic>)
    ensures StoreByProjectAndServiceName(c, projectName, serviceName, list).v1list == c.v1list
  {
    StoreAllQueue(c, Key(projectName, serviceName), list);
  }

  /** Every name cached in `c` under some key is still cached in `r` under that key. */
  ghost predicate CachedSubset(c: Cache, r: Cache)
  {
    forall k, x :: x in TopicsAt(c, k) ==> x in TopicsAt(r, k)
  }

  /** A store never uncaches a topic. */
  lemma StoreKeepsCached(c: Cache, projectName: string, serviceName: string, list: seq<Topic>)
    ensures CachedSubset(c, StoreByProjectAndServiceName(c, projectName, serviceName, list))
  {
    var k := Key(projectName, serviceName);
    var r := StoreByProjectAndServiceName(c, projectName, serviceName, list);
    StoreAllTopics(c, k, list);
    StoreOtherKeys(c, projectName, serviceName, list);
    forall k', x | x in TopicsAt(c, k') ensures x in TopicsAt(r, k') {
      if k' == k && list != [] {
        assert x in TopicsAt(StoreAll(c, k, list), k).Keys;
      }
    }
  }

  /** Enqueuing a name that is not recorded as missing keeps queued and missing names apart. */
  lemma AddToQueuePreservesMissingNotQueued(c: Cache, projectName: string, serviceName: string, topicName: string)
    requires MissingNotQueued(c)
    requires topicName !in GetMissing(c, projectName, serviceName)
    ensures MissingNotQueued(AddToQueue(c, projectName, serviceName, topicName))
  {
    var r := AddToQueue(c, projectName, serviceName, topicName);
    forall k, x | x in SliceAt(r.inQueue, k) ensures x !in SliceAt(r.missing, k) {
      if k == Key(projectName, serviceName) && x != topicName {
        var q := SliceAt(c.inQueue, k);
        if topicName !in q && topicName !in TopicsAt(c, k) {
          assert SliceAt(r.inQueue, k) == q + [topicName];
        }
      }
    }
  }

  lemma StorePreservesMissingNotQueued(c: Cache, projectName: string, serviceName: string, list: seq<Topic>)
    requires MissingNotQueued(c)
    ensures MissingNotQueued(StoreByProjectAndServiceName(c, projectName, serviceName, list))
  {
    StoreEffect(c, projectName, serviceName, list);
    StoreOtherKeys(c, projectName, serviceName, list);
  }

  lemma MarkMissingPreservesMissingNotQueued(c: Cache, projectName: string, serviceName: string, topicName: string)
    requires MissingNotQueued(c)
    ensures MissingNotQueued(DeleteFromQueueAndMarkMissing(c, projectName, serviceName, topicName))
  {
  }

  /** Go's in-place removal loop agrees with `Remove` on every queue of a valid cache, so
      `StoreOne` and `DeleteFromQueueAndMarkMissing` are exact there. */
  lemma InPlaceRemovalExact(c: Cache, k: string, x: string)
    requires Valid(c) && k in c.inQueue
    ensures var q := c.inQueue[k];
            RangeDelete(q, |q|, |q|, 0, x).Some?
            && var (a, l) := RangeDelete(q, |q|, |q|, 0, x).value; a[..l] == Remove(q, x)
  {
    var q := c.inQueue[k];
    assert q[..|q|] == q;
    RangeDeleteOnDistinct(q, |q|, x);
  }
}

=== FILE: topic_wait.dfy ===
/** The topic availability waiter: its constructor, one poll step of its refresh function,
    and the batched refresh that feeds the shared topic cache. The vendor API is passed in
    as response values (the V1 listing) and as a function from queried names to the batch
    response (the V2 lookup); the single-permit semaphore is the `permitHeld` flag. */
module TopicWait {
  import opened Outcomes
  import opened GoSlices
  import opened TopicCache

  datatype Waiter = Waiter(project: string, serviceName: string, topicName: string)

  /** The shared state a poll step sees: the cache and whether the refresh permit is taken. */
  datatype Env = Env(cache: Cache, permitHeld: bool)

  /** Response of `KafkaTopics.List` (V1 listing). */
  datatype ListResponse = Listed(topics: seq<ListTopic>) | ListFailed(error: Error)

  /** Response of `KafkaTopics.V2List` for one batch of names. */
  datatype BatchResponse = Found(topics: seq<Topic>) | BatchFailed(error: Error)

  /** What one poll returns to the polling driver: the topic (nil in Go when absent), the
      state name and the error. */
  datatype PollResult = PollResult(topic: Option<Topic>, state: string, err: Option<Error>)

  /** Outcome of the batch loop: the final cache, the error it returns and the batches it
      queried, in order; or the fuel ran out after querying `batches`. */
  datatype Loop =
    | LoopDone(cache: Cache, err: Option<Error>, batches: seq<seq<string>>)
    | LoopOutOfFuel(batches: seq<seq<string>>)

  datatype Refresh =
    | Refreshed(env: Env, err: Option<Error>, batches: seq<seq<string>>)
    | RefreshOutOfFuel(batches: seq<seq<string>>)

  datatype Step =
    | Stepped(env: Env, result: PollResult, batches: seq<seq<string>>)
    | StepOutOfFuel(batches: seq<seq<string>>)

  // ---------------------------------------------------------------------------------------
  // Construction

  const Int64Modulus: int := 0x1_0000_0000_0000_0000
  const Int64Limit: int := 0x8000_0000_0000_0000

  /** Go's 64-bit `int` arithmetic: the two's-complement value congruent to x. */
  function WrapInt64(x: int): (r: int)
    ensures -Int64Limit <= r < Int64Limit
    ensures (r - x) % Int64Modulus == 0
  {
    (x + Int64Limit) % Int64Modulus - Int64Limit
  }

  function InvalidInput(project: string, serviceName: string, topicName: string): Error
  {
    Formatted("return invalid input: project=%q, serviceName=%q, topicName=%q", [project, serviceName, topicName])
  }

  /** The constructor as written: it tests the 64-bit product of the three lengths for zero. */
  function NewWaiterAsWritten(project: string, serviceName: string, topicName: string): (r: Result<Waiter>)
    ensures project == [] || serviceName == [] || topicName == [] ==> r == Fail(InvalidInput(project, serviceName, topicName))
    ensures r.Ok? ==> r.value == Waiter(project, serviceName, topicName)
  {
    if WrapInt64(WrapInt64(|project| * |serviceName|) * |topicName|) == 0 then
      Fail(InvalidInput(project, serviceName, topicName))
    else
      Ok(Waiter(project, serviceName, topicName))
  }

  /** The constructor as intended: it fails exactly when one of the three names is empty. */
  function NewWaiter(project: string, serviceName: string, topicName: string): (r: Result<Waiter>)
    ensures r.Fail? <==> project == [] || serviceName == [] || topicName == []
    ensures r.Fail? ==> r.error == InvalidInput(project, serviceName, topicName)
    ensures r.Ok? ==> r.value == Waiter(project, serviceName, topicName)
  {
    if |project| == 0 || |serviceName| == 0 || |topicName| == 0 then
      Fail(InvalidInput(project, serviceName, topicName))
    else
      Ok(Waiter(project, serviceName, topicName))
  }

  /** Below 2^63 the product does not wrap and both constructors agree. */
  lemma NewWaiterAgreesWithoutOverflow(project: string, serviceName: string, topicName: string)
    requires |project| * |serviceName| * |topicName| < Int64Limit
    ensures NewWaiterAsWritten(project, serviceName, topicName) == NewWaiter(project, serviceName, topicName)
  {
    var a, b, c := |project|, |serviceName|, |topicName|;
    if a > 0 && b > 0 && c > 0 {
      assert a * b <= a * b * c by {
        assert a * b * c == (a * b) * c;
      }
      assert 0 < a * b * c;
      assert WrapInt64(a * b) == a * b;
      assert WrapInt64(a * b * c) == a * b * c;
    }
  }

  /** A name of 2^22 characters. */
  function LongName(): (r: string)
    ensures |r| == 0x40_0000
  {
    seq(0x40_0000, i => 'a')
  }

  /** Three non-empty names of 2^22 characters: the product 2^66 wraps to 0 and the
      constructor as written rejects them. */
  lemma NewWaiterOverflowRejectsLongNames()
    ensures NewWaiter(LongName(), LongName(), LongName()).Ok?
    ensures NewWaiterAsWritten(LongName(), LongName(), LongName()).Fail?
  {
    assert |LongName()| * |LongName()| == 0x1000_0000_0000 by {
      assert |LongName()| == 0x40_0000;
      assert 0x40_0000 * 0x40_0000 == 0x1000_0000_0000;
    }
    assert WrapInt64(0x1000_0000_0000) == 0x1000_0000_0000;
    assert 0x1000_0000_0000 * |LongName()| == 0x4_0000_0000_0000_0000;
    assert WrapInt64(0x4_0000_0000_0000_0000) == 0;
  }

  // ---------------------------------------------------------------------------------------
  // Marking the names of a not-found batch

  /** The names of `queue` absent from the V1 listing, in queue order. */
  function AbsentFrom(queue: seq<string>, v1: seq<string>): (r: seq<string>)
    ensures forall x :: x in r <==> x in queue && x !in v1
  {
    Except(queue, set x | x in v1)
  }

  /** The not-found branch as intended: every name of the queried batch that the V1 listing
      does not hold is taken out of the queue and marked missing, in batch order. */
  function MarkQueuedMissing(c: Cache, projectName: string, serviceName: string, queue: seq<string>): Cache
    decreases |queue|
  {
    if queue == [] then c
    else
      var c1 := if queue[0] in GetV1List(c, projectName, serviceName) then c
                else DeleteFromQueueAndMarkMissing(c, projectName, serviceName, queue[0]);
      MarkQueuedMissing(c1, projectName, serviceName, queue[1..])
  }

  lemma {:induction false} MarkQueuedMissingFrame(c: Cache, projectName: string, serviceName: string, queue: seq<string>)
    ensures var r := MarkQueuedMissing(c, projectName, serviceName, queue);
            var k := Key(projectName, serviceName);
            && r.internal == c.internal && r.v1list == c.v1list
            && (forall k' :: k' != k ==> SliceAt(r.inQueue, k') == SliceAt(c.inQueue, k') && SliceAt(r.missing, k') == SliceAt(c.missing, k'))
    decreases |queue|
  {
    if queue != [] {
      var c1 := if queue[0] in GetV1List(c, projectName, serviceName) then c
                else DeleteFromQueueAndMarkMissing(c, projectName, serviceName, queue[0]);
      MarkQueuedMissingFrame(c1, projectName, serviceName, queue[1..]);
    }
  }

  lemma AbsentFromCons(queue: seq<string>, v1: seq<string>)
    requires queue != []
    ensures AbsentFrom(queue, v1) == (if queue[0] in v1 then [] else [queue[0]]) + AbsentFrom(queue[1..], v1)
  {
  }

  lemma {:induction false} MarkQueuedMissingMissing(c: Cache, projectName: string, serviceName: string, queue: seq<string>)
    ensures GetMissing(MarkQueuedMissing(c, projectName, serviceName, queue), projectName, serviceName)
         == GetMissing(c, projectName, serviceName) + AbsentFrom(queue, GetV1List(c, projectName, serviceName))
    decreases |queue|
  {
    if queue != [] {
      var v1 := GetV1List(c, projectName, serviceName);
      var c1 := if queue[0] in v1 then c else DeleteFromQueueAndMarkMissing(c, projectName, serviceName, queue[0]);
      MarkQueuedMissingMissing(c1, projectName, serviceName, queue[1..]);
      AbsentFromCons(queue, v1);
    }
  }

  lemma {:induction false} MarkQueuedMissingQueue(c: Cache, projectName: string, serviceName: string, queue: seq<string>)
    ensures SliceAt(MarkQueuedMissing(c, projectName, serviceName, queue).inQueue, Key(projectName, serviceName))
         == Except(SliceAt(c.inQueue, Key(projectName, serviceName)),
                   set x | x in AbsentFrom(queue, GetV1List(c, projectName, serviceName)))
    decreases |queue|
  {
    var k := Key(projectName, serviceName);
    var v1 := GetV1List(c, projectName, serviceName);
    if queue == [] {
      ExceptNothing(SliceAt(c.inQueue, k), {});
      assert (set x | x in AbsentFrom(queue, v1)) == {};
    } else {
      var q0 := queue[0];
      var c1 := if q0 in v1 then c else DeleteFromQueueAndMarkMissing(c, projectName, serviceName, q0);
      MarkQueuedMissingQueue(c1, projectName, serviceName, queue[1..]);
      AbsentSetCons(queue, v1);
      if q0 in v1 {
        assert (set x | x in AbsentFrom(queue, v1)) == (set x | x in AbsentFrom(queue[1..], v1));
      } else {
        assert GetV1List(c1, projectName, serviceName) == v1;
        DeleteFromQueueSlice(c, projectName, serviceName, q0);
        ExceptTwice(SliceAt(c.inQueue, k), {q0}, set x | x in AbsentFrom(queue[1..], v1));
      }
    }
  }

  /** The set of absent names of a non-empty queue, split at its head. */
  lemma AbsentSetCons(queue: seq<string>, v1: seq<string>)
    requires queue != []
    ensures (set x | x in AbsentFrom(queue, v1))
         == (if queue[0] in v1 then {} else {queue[0]}) + (set x | x in AbsentFrom(queue[1..], v1))
  {
    AbsentFromCons(queue, v1);
  }

  /** Exactly the batch names absent from the V1 listing are marked missing (in order) and
      leave the queue; the queue keeps everything else in order; nothing else changes. */
  lemma MarkQueuedMissingSpec(c: Cache, projectName: string, serviceName: string, queue: seq<string>)
    ensures var r := MarkQueuedMissing(c, projectName, serviceName, queue);
            var k := Key(projectName, serviceName);
            var absent := AbsentFrom(queue, GetV1List(c, projectName, serviceName));
            && GetMissing(r, projectName, serviceName) == GetMissing(c, projectName, serviceName) + absent
            && SliceAt(r.inQueue, k) == Except(SliceAt(c.inQueue, k), set x | x in absent)
            && (forall k' :: k' != k ==> SliceAt(r.inQueue, k') == SliceAt(c.inQueue, k') && SliceAt(r.missing, k') == SliceAt(c.missing, k'))
            && r.internal == c.internal && r.v1list == c.v1list
  {
    MarkQueuedMissingFrame(c, projectName, serviceName, queue);
    MarkQueuedMissingMissing(c, projectName, serviceName, queue);
    MarkQueuedMissingQueue(c, projectName, serviceName, queue);
  }

  /** Lines 120-124 of kafka_topic_wait.go as written. `queue` came from `GetQueue` and shares its backing array
      with the cached queue, which every `DeleteFromQueueAndMarkMissing` shifts in place; the
      range over `queue` therefore reads the shifted cells. `arr` is that backing array, `len`
      the cached queue's length, `n` the length of `queue`. None: a panic. */
  function MarkLoopAsWritten(arr: seq<string>, len: nat, n: nat, j: nat, v1: seq<string>, marked: seq<string>)
    : (r: Option<(seq<string>, nat, seq<string>)>)
    requires len <= |arr| && n <= |arr| && j <= n
    ensures r.Some? ==> |r.value.0| == |arr| && r.value.1 <= len && marked <= r.value.2
    decreases n - j
  {
    if j == n then Some((arr, len, marked))
    else if arr[j] in v1 then MarkLoopAsWritten(arr, len, n, j + 1, v1, marked)
    else match RangeDelete(arr, len, len, 0, arr[j])
      case None => None
      case Some((a, l)) => MarkLoopAsWritten(a, l, n, j + 1, v1, marked + [arr[j]])
  }

  /** The not-found branch as written, on the cache whose queue was just queried. */
  function MarkQueuedMissingAsWritten(c: Cache, projectName: string, serviceName: string): (r: Option<Cache>)
    ensures r.Some? ==> r.value.internal == c.internal && r.value.v1list == c.v1list
    ensures r.Some? ==> GetMissing(c, projectName, serviceName) <= GetMissing(r.value, projectName, serviceName)
    ensures r.Some? ==> forall k :: k != Key(projectName, serviceName) ==>
              SliceAt(r.value.inQueue, k) == SliceAt(c.inQueue, k) && SliceAt(r.value.missing, k) == SliceAt(c.missing, k)
  {
    var k := Key(projectName, serviceName);
    var q := SliceAt(c.inQueue, k);
    match MarkLoopAsWritten(q, |q|, |GetQueue(c, projectName, serviceName)|, 0, GetV1List(c, projectName, serviceName), [])
    case None => None
    case Some((a, l, marked)) =>
      Some(c.(inQueue := if k in c.inQueue then c.inQueue[k := a[..l]] else c.inQueue,
              missing := if marked == [] then c.missing else c.missing[k := SliceAt(c.missing, k) + marked]))
  }

  /** On a duplicate-free queue the aliasing loop never panics: each deletion finds the
      name at most once, and the queue it leaves behind is again duplicate-free. */
  lemma {:induction false} MarkLoopNoPanic(arr: seq<string>, len: nat, n: nat, j: nat, v1: seq<string>, marked: seq<string>)
    requires len <= |arr| && n <= |arr| && j <= n && NoDup(arr[..len])
    ensures MarkLoopAsWritten(arr, len, n, j, v1, marked).Some?
    decreases n - j
  {
    if j < n {
      if arr[j] in v1 {
        MarkLoopNoPanic(arr, len, n, j + 1, v1, marked);
      } else {
        RangeDeleteOnDistinct(arr, len, arr[j]);
        var (a, l) := RangeDelete(arr, len, len, 0, arr[j]).value;
        ExceptNoDup(arr[..len], {arr[j]});
        MarkLoopNoPanic(a, l, n, j + 1, v1, marked + [arr[j]]);
      }
    }
  }

  /** The reconciliation as written panics only on a queue holding a name twice, which no
      cache operation produces (`Valid`). */
  lemma MarkQueuedMissingAsWrittenNoPanic(c: Cache, projectName: string, serviceName: string)
    requires Valid(c)
    ensures MarkQueuedMissingAsWritten(c, projectName, serviceName).Some?
  {
    var q := SliceAt(c.inQueue, Key(projectName, serviceName));
    assert q[..|q|] == q;
    MarkLoopNoPanic(q, |q|, |GetQueue(c, projectName, serviceName)|, 0, GetV1List(c, projectName, serviceName), []);
  }

  /** Queue [a, b, c] of key "ps" with V1 listing [c]. */
  function AliasingExample(): Cache
  {
    Cache(map[], map["ps" := ["a", "b", "c"]], map[], map["ps" := ["c"]])
  }

  /** On queue [a, b, c] with V1 listing [c] the code as written marks only "a" and leaves
      the absent name "b" queued. */
  lemma AliasedMarkingSkipsNames()
    ensures MarkQueuedMissingAsWritten(AliasingExample(), "p", "s")
         == Some(AliasingExample().(inQueue := map["ps" := ["b", "c"]], missing := map["ps" := ["a"]]))
  {
    var c := AliasingExample();
    var arr: seq<string> := ["a", "b", "c"];
    var v1: seq<string> := ["c"];
    assert Key("p", "s") == "ps";
    assert SliceAt(c.inQueue, "ps") == arr;
    assert GetQueue(c, "p", "s") == arr;
    assert GetV1List(c, "p", "s") == v1;
    // the first iteration reads "a": the cached queue becomes [b, c] over the array [b, c, c]
    var a1: seq<string> := ["b", "c", "c"];
    assert ShiftOut(arr, 3, 0) == a1;
    RangeDeleteNoMatch(a1, 2, 3, 1, "a");
    assert RangeDelete(arr, 3, 3, 0, "a") == Some((a1, 2));
    // the second iteration reads cell 1, now "c", which the V1 listing holds; so does the third
    assert MarkLoopAsWritten(a1, 2, 3, 2, v1, ["a"]) == Some((a1, 2, ["a"]));
    assert MarkLoopAsWritten(a1, 2, 3, 1, v1, ["a"]) == Some((a1, 2, ["a"]));
    assert arr[0] == "a" && arr[0] !in v1;
    assert [] + [arr[0]] == ["a"];
    assert MarkLoopAsWritten(arr, 3, 3, 0, v1, []) == Some((a1, 2, ["a"]));
    assert a1[..2] == ["b", "c"];
    assert c.inQueue["ps" := a1[..2]] == map["ps" := ["b", "c"]];
    assert c.missing["ps" := SliceAt(c.missing, "ps") + ["a"]] == map["ps" := ["a"]];
  }

  /** On the same cache the intended marking takes out both "a" and "b". */
  lemma IntendedMarkingOnExample()
    ensures var r := MarkQueuedMissing(AliasingExample(), "p", "s", GetQueue(AliasingExample(), "p", "s"));
            GetQueue(r, "p", "s") == ["c"] && GetMissing(r, "p", "s") == ["a", "b"]
  {
    var c := AliasingExample();
    var c1 := c.(inQueue := map["ps" := ["b", "c"]], missing := map["ps" := ["a"]]);
    var c2 := c.(inQueue := map["ps" := ["c"]], missing := map["ps" := ["a", "b"]]);
    assert Key("p", "s") == "ps";
    assert GetQueue(c, "p", "s") == ["a", "b", "c"];
    IntendedFirstStep();
    IntendedSecondStep();
    assert GetV1List(c, "p", "s") == ["c"] && GetV1List(c1, "p", "s") == ["c"] && GetV1List(c2, "p", "s") == ["c"];
    assert MarkQueuedMissing(c2, "p", "s", ["c"]) == c2 by {
      assert ["c"][1..] == [];
    }
    assert MarkQueuedMissing(c1, "p", "s", ["b", "c"]) == c2 by {
      assert ["b", "c"][1..] == ["c"];
    }
    assert ["a", "b", "c"][1..] == ["b", "c"];
  }

  lemma IntendedFirstStep()
    ensures DeleteFromQueueAndMarkMissing(AliasingExample(), "p", "s", "a")
         == AliasingExample().(inQueue := map["ps" := ["b", "c"]], missing := map["ps" := ["a"]])
  {
    var arr: seq<string> := ["a", "b", "c"];
    assert Key("p", "s") == "ps";
    assert NoDup(arr);
    RemoveAt(arr, 0);
    assert arr[..0] + arr[1..] == ["b", "c"];
    assert Remove(arr, "a") == ["b", "c"];
    var c := AliasingExample();
    assert c.inQueue["ps" := Remove(arr, "a")] == map["ps" := ["b", "c"]];
    assert SliceAt(c.missing, "ps") + ["a"] == ["a"];
    assert c.missing["ps" := ["a"]] == map["ps" := ["a"]];
  }

  lemma IntendedSecondStep()
    ensures DeleteFromQueueAndMarkMissing(AliasingExample().(inQueue := map["ps" := ["b", "c"]], missing := map["ps" := ["a"]]), "p", "s", "b")
         == AliasingExample().(inQueue := map["ps" := ["c"]], missing := map["ps" := ["a", "b"]])
  {
    var arr: seq<string> := ["b", "c"];
    assert Key("p", "s") == "ps";
    assert NoDup(arr);
    RemoveAt(arr, 0);
    assert arr[..0] + arr[1..] == ["c"];
    assert Remove(arr, "b") == ["c"];
    var c := AliasingExample().(inQueue := map["ps" := ["b", "c"]], missing := map["ps" := ["a"]]);
    assert c.inQueue["ps" := Remove(arr, "b")] == map["ps" := ["c"]];
    assert SliceAt(c.missing, "ps") + ["b"] == ["a", "b"];
    assert c.missing["ps" := ["a", "b"]] == map["ps" := ["a", "b"]];
  }

  // ---------------------------------------------------------------------------------------
  // The refresh and its batch loop

  /** Lines 106-131: query the queue in batches until it is empty, an error occurs, or a
      not-found batch has been reconciled against the V1 listing. */
  function BatchLoop(w: Waiter, c: Cache, api: seq<string> -> BatchResponse, fuel: nat): Loop
    decreases fuel
  {
    if fuel == 0 then LoopOutOfFuel([])
    else
      var queue := GetQueue(c, w.project, w.serviceName);
      if |queue| == 0 then LoopDone(c, None, [])
      else match api(queue)
        case BatchFailed(e) =>
          if IsNotFound(e) then LoopDone(MarkQueuedMissing(c, w.project, w.serviceName, queue), None, [queue])
          else LoopDone(c, Some(e), [queue])
        case Found(topics) =>
          match BatchLoop(w, StoreByProjectAndServiceName(c, w.project, w.serviceName, topics), api, fuel - 1)
          case LoopOutOfFuel(bs) => LoopOutOfFuel([queue] + bs)
          case LoopDone(c', err, bs) => LoopDone(c', err, [queue] + bs)
  }

  lemma {:induction false} MarkQueuedMissingPreservesInvariant(c: Cache, projectName: string, serviceName: string, queue: seq<string>)
    requires Valid(c) && MissingNotQueued(c)
    ensures Valid(MarkQueuedMissing(c, projectName, serviceName, queue))
    ensures MissingNotQueued(MarkQueuedMissing(c, projectName, serviceName, queue))
    decreases |queue|
  {
    if queue != [] {
      var c1 := if queue[0] in GetV1List(c, projectName, serviceName) then c
                else DeleteFromQueueAndMarkMissing(c, projectName, serviceName, queue[0]);
      MarkMissingPreservesValid(c, projectName, serviceName, queue[0]);
      MarkMissingPreservesMissingNotQueued(c, projectName, serviceName, queue[0]);
      MarkQueuedMissingPreservesInvariant(c1, projectName, serviceName, queue[1..]);
    }
  }

  /** Every queried batch is non-empty and holds at most 99 names, the first is the queue's
      head, the loop queries nothing exactly when the queue is empty, and the error it returns
      is never a not-found error (those are absorbed by the reconciliation). */
  lemma {:induction false} BatchLoopBatches(w: Waiter, c: Cache, api: seq<string> -> BatchResponse, fuel: nat)
    ensures var r := BatchLoop(w, c, api, fuel);
            && (forall i :: 0 <= i < |r.batches| ==> 0 < |r.batches[i]| <= 99)
            && (r.batches != [] ==> r.batches[0] == GetQueue(c, w.project, w.serviceName))
            && (r.LoopDone? ==> (r.batches == [] <==> GetQueue(c, w.project, w.serviceName) == []))
            && (r.LoopDone? && r.err.Some? ==> !IsNotFound(r.err.value))
    decreases fuel
  {
    if fuel > 0 {
      var queue := GetQueue(c, w.project, w.serviceName);
      if queue != [] && api(queue).Found? {
        var c1 := StoreByProjectAndServiceName(c, w.project, w.serviceName, api(queue).topics);
        BatchLoopBatches(w, c1, api, fuel - 1);
        var r1 := BatchLoop(w, c1, api, fuel - 1);
        assert BatchLoop(w, c, api, fuel).batches == [queue] + r1.batches;
      }
    }
  }

  /** An answered batch hands the loop on to the next round on the updated cache. */
  lemma BatchLoopFoundStep(w: Waiter, c: Cache, api: seq<string> -> BatchResponse, fuel: nat, topics: seq<Topic>)
    requires fuel > 0
    requires GetQueue(c, w.project, w.serviceName) != []
    requires api(GetQueue(c, w.project, w.serviceName)) == Found(topics)
    ensures var r := BatchLoop(w, c, api, fuel);
            var r1 := BatchLoop(w, StoreByProjectAndServiceName(c, w.project, w.serviceName, topics), api, fuel - 1);
            && (r.LoopDone? <==> r1.LoopDone?)
            && (r1.LoopDone? ==> r.cache == r1.cache && r.err == r1.err)
  {
  }

  /** The loop leaves the V1 listings alone and never uncaches a topic. */
  lemma BatchLoopFrame(w: Waiter, c: Cache, api: seq<string> -> BatchResponse, fuel: nat)
    ensures var r := BatchLoop(w, c, api, fuel);
            r.LoopDone? ==> r.cache.v1list == c.v1list && CachedSubset(c, r.cache)
  {
    BatchLoopKeepsV1List(w, c, api, fuel);
    BatchLoopKeepsCached(w, c, api, fuel);
  }

  lemma {:induction false} BatchLoopKeepsV1List(w: Waiter, c: Cache, api: seq<string> -> BatchResponse, fuel: nat)
    ensures var r := BatchLoop(w, c, api, fuel);
            r.LoopDone? ==> r.cache.v1list == c.v1list
    decreases fuel, 1
  {
    var more, c1 := RoundKeepsV1List(w, c, api, fuel);
    if more {
      KeepsV1ListFrom(w, c, api, fuel, c1);
    }
  }

  /** After a round that hands on to `c1` and keeps the V1 listings, so does the whole loop. */
  lemma {:induction false} KeepsV1ListFrom(w: Waiter, c: Cache, api: seq<string> -> BatchResponse, fuel: nat, c1: Cache)
    requires RoundHandsOn(w, c, api, fuel, c1) && c1.v1list == c.v1list
    ensures var r := BatchLoop(w, c, api, fuel);
            r.LoopDone? ==> r.cache.v1list == c.v1list
    decreases fuel, 0
  {
    BatchLoopKeepsV1List(w, c1, api, fuel - 1);
  }

  lemma {:induction false} BatchLoopKeepsCached(w: Waiter, c: Cache, api: seq<string> -> BatchResponse, fuel: nat)
    ensures var r := BatchLoop(w, c, api, fuel);
            r.LoopDone? ==> CachedSubset(c, r.cache)
    decreases fuel, 1
  {
    var more, c1 := RoundKeepsCached(w, c, api, fuel);
    if more {
      KeepsCachedFrom(w, c, api, fuel, c1);
    }
  }

  /** After a round that hands on to `c1` and keeps every cached topic, so does the whole loop. */
  lemma {:induction false} KeepsCachedFrom(w: Waiter, c: Cache, api: seq<string> -> BatchResponse, fuel: nat, c1: Cache)
    requires RoundHandsOn(w, c, api, fuel, c1) && CachedSubset(c, c1)
    ensures var r := BatchLoop(w, c, api, fuel);
            r.LoopDone? ==> CachedSubset(c, r.cache)
    decreases fuel, 0
  {
    BatchLoopKeepsCached(w, c1, api, fuel - 1);
    var r1 := BatchLoop(w, c1, api, fuel - 1);
    if r1.LoopDone? {
      CachedSubsetTransitive(c, c1, r1.cache);
    }
  }

  lemma CachedSubsetTransitive(a: Cache, b: Cache, c: Cache)
    requires CachedSubset(a, b) && CachedSubset(b, c)
    ensures CachedSubset(a, c)
  {
  }

  /** The loop keeps the cache invariants. */
  lemma {:induction false} BatchLoopPreservesInvariant(w: Waiter, c: Cache, api: seq<string> -> BatchResponse, fuel: nat)
    requires Valid(c) && MissingNotQueued(c)
    ensures var r := BatchLoop(w, c, api, fuel);
            r.LoopDone? ==> Valid(r.cache) && MissingNotQueued(r.cache)
    decreases fuel, 1
  {
    var more, c1 := RoundPreservesInvariant(w, c, api, fuel);
    if more {
      PreservesInvariantFrom(w, c, api, fuel, c1);
    }
  }

  /** After a round that hands on to `c1` and keeps both invariants, so does the whole loop. */
  lemma {:induction false} PreservesInvariantFrom(w: Waiter, c: Cache, api: seq<string> -> BatchResponse, fuel: nat, c1: Cache)
    requires RoundHandsOn(w, c, api, fuel, c1) && Valid(c1) && MissingNotQueued(c1)
    ensures var r := BatchLoop(w, c, api, fuel);
            r.LoopDone? ==> Valid(r.cache) && MissingNotQueued(r.cache)
    decreases fuel, 0
  {
    BatchLoopPreservesInvariant(w, c1, api, fuel - 1);
  }

  /** One round of the loop, seen from outside: either the loop ends here, or it goes on
      from the cache `c1` and the rest of the loop decides the outcome. The three lemmas
      below add what the round keeps. */
  ghost predicate RoundHandsOn(w: Waiter, c: Cache, api: seq<string> -> BatchResponse, fuel: nat, c1: Cache)
  {
    && fuel > 0
    && var r := BatchLoop(w, c, api, fuel);
       var r1 := BatchLoop(w, c1, api, fuel - 1);
       && (r.LoopDone? <==> r1.LoopDone?)
       && (r1.LoopDone? ==> r.cache == r1.cache && r.err == r1.err)
  }

  lemma RoundKeepsV1List(w: Waiter, c: Cache, api: seq<string> -> BatchResponse, fuel: nat) returns (more: bool, c1: Cache)
    ensures !more ==> var r := BatchLoop(w, c, api, fuel); r.LoopDone? ==> r.cache.v1list == c.v1list
    ensures more ==> RoundHandsOn(w, c, api, fuel, c1) && c1.v1list == c.v1list
  {
    c1 := c;
    more := fuel > 0 && GetQueue(c, w.project, w.serviceName) != [] && api(GetQueue(c, w.project, w.serviceName)).Found?;
    if more {
      c1 := FoundRound(w, c, api, fuel);
    } else if fuel > 0 && GetQueue(c, w.project, w.serviceName) != [] {
      FailedRound(w, c, api, fuel);
    }
  }

  lemma RoundKeepsCached(w: Waiter, c: Cache, api: seq<string> -> BatchResponse, fuel: nat) returns (more: bool, c1: Cache)
    ensures !more ==> var r := BatchLoop(w, c, api, fuel); r.LoopDone? ==> CachedSubset(c, r.cache)
    ensures more ==> RoundHandsOn(w, c, api, fuel, c1) && CachedSubset(c, c1)
  {
    c1 := c;
    more := fuel > 0 && GetQueue(c, w.project, w.serviceName) != [] && api(GetQueue(c, w.project, w.serviceName)).Found?;
    if more {
      c1 := FoundRound(w, c, api, fuel);
    } else if fuel > 0 && GetQueue(c, w.project, w.serviceName) != [] {
      FailedRound(w, c, api, fuel);
    }
  }

  lemma RoundPreservesInvariant(w: Waiter, c: Cache, api: seq<string> -> BatchResponse, fuel: nat) returns (more: bool, c1: Cache)
    requires Valid(c) && MissingNotQueued(c)
    ensures !more ==> var r := BatchLoop(w, c, api, fuel); r.LoopDone? ==> Valid(r.cache) && MissingNotQueued(r.cache)
    ensures more ==> RoundHandsOn(w, c, api, fuel, c1) && Valid(c1) && MissingNotQueued(c1)
  {
    c1 := c;
    more := fuel > 0 && GetQueue(c, w.project, w.serviceName) != [] && api(GetQueue(c, w.project, w.serviceName)).Found?;
    if more {
      c1 := FoundRound(w, c, api, fuel);
    } else if fuel > 0 && GetQueue(c, w.project, w.serviceName) != [] {
      FailedRound(w, c, api, fuel);
    }
  }

  /** A round whose batch the backend answered, seen from outside: the cache `c1` the next
      round starts from keeps the V1 listings, every cached topic and both invariants, and
      the rest of the loop decides the outcome. */
  lemma FoundRound(w: Waiter, c: Cache, api: seq<string> -> BatchResponse, fuel: nat) returns (c1: Cache)
    requires fuel > 0
    requires GetQueue(c, w.project, w.serviceName) != [] && api(GetQueue(c, w.project, w.serviceName)).Found?
    ensures c1.v1list == c.v1list && CachedSubset(c, c1)
    ensures Valid(c) ==> Valid(c1)
    ensures MissingNotQueued(c) ==> MissingNotQueued(c1)
    ensures var r := BatchLoop(w, c, api, fuel);
            var r1 := BatchLoop(w, c1, api, fuel - 1);
            && (r.LoopDone? <==> r1.LoopDone?)
            && (r1.LoopDone? ==> r.cache == r1.cache && r.err == r1.err)
  {
    var topics := api(GetQueue(c, w.project, w.serviceName)).topics;
    c1 := StoreByProjectAndServiceName(c, w.project, w.serviceName, topics);
    StoreKeepsV1List(c, w.project, w.serviceName, topics);
    StoreKeepsCached(c, w.project, w.serviceName, topics);
    if Valid(c) {
      StorePreservesValid(c, w.project, w.serviceName, topics);
    }
    if MissingNotQueued(c) {
      StorePreservesMissingNotQueued(c, w.project, w.serviceName, topics);
    }
    BatchLoopFoundStep(w, c, api, fuel, topics);
  }

  /** A round whose batch failed ends the loop, keeping the V1 listings, every cached topic
      and both invariants. */
  lemma FailedRound(w: Waiter, c: Cache, api: seq<string> -> BatchResponse, fuel: nat)
    requires fuel > 0
    requires GetQueue(c, w.project, w.serviceName) != [] && api(GetQueue(c, w.project, w.serviceName)).BatchFailed?
    ensures var r := BatchLoop(w, c, api, fuel);
            && r.LoopDone?
            && r.cache.v1list == c.v1list && CachedSubset(c, r.cache)
            && (Valid(c) && MissingNotQueued(c) ==> Valid(r.cache) && MissingNotQueued(r.cache))
  {
    var queue := GetQueue(c, w.project, w.serviceName);
    var r := BatchLoop(w, c, api, fuel);
    if IsNotFound(api(queue).error) {
      assert r.cache == MarkQueuedMissing(c, w.project, w.serviceName, queue);
      MarkQueuedMissingFrame(c, w.project, w.serviceName, queue);
      if Valid(c) && MissingNotQueued(c) {
        MarkQueuedMissingPreservesInvariant(c, w.project, w.serviceName, queue);
      }
    }
  }

  /** A batch answered with 404 ends the loop without error: exactly the batch names the V1
      listing lacks are marked missing, in batch order, and leave the queue. */
  lemma BatchLoopNotFound(w: Waiter, c: Cache, api: seq<string> -> BatchResponse, fuel: nat)
    requires fuel > 0
    requires var queue := GetQueue(c, w.project, w.serviceName);
             queue != [] && api(queue).BatchFailed? && IsNotFound(api(queue).error)
    ensures var queue := GetQueue(c, w.project, w.serviceName);
            var r := BatchLoop(w, c, api, fuel);
            var k := Key(w.project, w.serviceName);
            var absent := AbsentFrom(queue, GetV1List(c, w.project, w.serviceName));
            && r.LoopDone? && r.err.None? && r.batches == [queue]
            && GetMissing(r.cache, w.project, w.serviceName) == GetMissing(c, w.project, w.serviceName) + absent
            && SliceAt(r.cache.inQueue, k) == Except(SliceAt(c.inQueue, k), set x | x in absent)
            && r.cache.internal == c.internal
  {
    MarkQueuedMissingSpec(c, w.project, w.serviceName, GetQueue(c, w.project, w.serviceName));
  }

  /** An empty queue ends the loop at once, without error and without a query. */
  lemma BatchLoopEmptyQueue(w: Waiter, c: Cache, api: seq<string> -> BatchResponse, fuel: nat)
    requires fuel > 0 && GetQueue(c, w.project, w.serviceName) == []
    ensures BatchLoop(w, c, api, fuel) == LoopDone(c, None, [])
  {
  }

  /** A batch failing with anything but a not-found error ends the loop with that very error,
      leaving the cache as it was. */
  lemma BatchLoopReportsError(w: Waiter, c: Cache, api: seq<string> -> BatchResponse, fuel: nat)
    requires fuel > 0
    requires var queue := GetQueue(c, w.project, w.serviceName);
             queue != [] && api(queue).BatchFailed? && !IsNotFound(api(queue).error)
    ensures var queue := GetQueue(c, w.project, w.serviceName);
            BatchLoop(w, c, api, fuel) == LoopDone(c, Some(api(queue).error), [queue])
  {
  }

  /** Whichever round fails, the error the loop returns is the failure of its last batch. */
  lemma {:induction false} BatchLoopErrorFromLastBatch(w: Waiter, c: Cache, api: seq<string> -> BatchResponse, fuel: nat)
    ensures var r := BatchLoop(w, c, api, fuel);
            r.LoopDone? && r.err.Some? ==>
              r.batches != [] && api(r.batches[|r.batches| - 1]) == BatchFailed(r.err.value)
    decreases fuel
  {
    if fuel > 0 {
      var queue := GetQueue(c, w.project, w.serviceName);
      if queue != [] && api(queue).Found? {
        var c1 := StoreByProjectAndServiceName(c, w.project, w.serviceName, api(queue).topics);
        BatchLoopErrorFromLastBatch(w, c1, api, fuel - 1);
        var r1 := BatchLoop(w, c1, api, fuel - 1);
        if r1.LoopDone? {
          assert BatchLoop(w, c, api, fuel) == LoopDone(r1.cache, r1.err, [queue] + r1.batches);
        }
      }
    }
  }

  /** A backend that answers the batch with a topic for each queried name. */
  ghost predicate Answers(api: seq<string> -> BatchResponse, queue: seq<string>)
  {
    api(queue).Found? && forall x :: x in queue ==> x in NameSet(api(queue).topics)
  }

  ghost predicate Complete(api: seq<string> -> BatchResponse)
  {
    forall queue :: Answers(api, queue)
  }

  /** One answered batch: the queue gets shorter and each name it held is now cached or
      still queued. */
  lemma AnsweredBatchProgress(c: Cache, projectName: string, serviceName: string, topics: seq<Topic>)
    requires var batch := GetQueue(c, projectName, serviceName);
             batch != [] && forall x :: x in batch ==> x in NameSet(topics)
    ensures var k := Key(projectName, serviceName);
            var c1 := StoreByProjectAndServiceName(c, projectName, serviceName, topics);
            && |SliceAt(c1.inQueue, k)| < |SliceAt(c.inQueue, k)|
            && (forall x :: x in SliceAt(c.inQueue, k) ==> x in TopicsAt(c1, k) || x in SliceAt(c1.inQueue, k))
            && forall x :: x in TopicsAt(c, k) ==> x in TopicsAt(c1, k)
  {
    var k := Key(projectName, serviceName);
    var q := SliceAt(c.inQueue, k);
    var batch := GetQueue(c, projectName, serviceName);
    var c1 := StoreByProjectAndServiceName(c, projectName, serviceName, topics);
    StoreEffect(c, projectName, serviceName, topics);
    assert q[0] == batch[0] && batch[0] in batch;
    ExceptShrinks(q, NameSet(topics), q[0]);
    forall x | x in q && x in NameSet(topics) ensures x in TopicsAt(c1, k) {
      var i :| 0 <= i < |topics| && topics[i].topicName == x;
      assert LoadByTopicName(c1, projectName, serviceName, x).1;
    }
  }

  /** With a backend that answers every batch and more rounds than queued names, the loop
      ends without error, the queue is drained and every name it held is cached. */
  lemma {:induction false} DrainWithCompleteBackend(w: Waiter, c: Cache, api: seq<string> -> BatchResponse, fuel: nat)
    requires Complete(api)
    requires fuel > |SliceAt(c.inQueue, Key(w.project, w.serviceName))|
    ensures Drained(c, BatchLoop(w, c, api, fuel), Key(w.project, w.serviceName))
    decreases fuel
  {
    var k := Key(w.project, w.serviceName);
    var batch := GetQueue(c, w.project, w.serviceName);
    if |batch| == 0 {
      assert SliceAt(c.inQueue, k) == [];
      assert BatchLoop(w, c, api, fuel) == LoopDone(c, None, []);
    } else {
      assert Answers(api, batch);
      var c1 := AnsweredRound(w, c, api, fuel);
      DrainWithCompleteBackend(w, c1, api, fuel - 1);
      DrainStep(c, c1, BatchLoop(w, c, api, fuel), BatchLoop(w, c1, api, fuel - 1), k);
    }
  }

  /** One round of the loop on an answered batch, seen from outside: the cache `c1` the next
      round starts from has a shorter queue, keeps every cached name and caches or keeps
      queued each queued name, and the rest of the loop decides the outcome. */
  lemma AnsweredRound(w: Waiter, c: Cache, api: seq<string> -> BatchResponse, fuel: nat) returns (c1: Cache)
    requires fuel > 0
    requires var batch := GetQueue(c, w.project, w.serviceName); batch != [] && Answers(api, batch)
    ensures var k := Key(w.project, w.serviceName);
            && |SliceAt(c1.inQueue, k)| < |SliceAt(c.inQueue, k)|
            && (forall x :: x in SliceAt(c.inQueue, k) ==> x in TopicsAt(c1, k) || x in SliceAt(c1.inQueue, k))
            && (forall x :: x in TopicsAt(c, k) ==> x in TopicsAt(c1, k))
    ensures var r := BatchLoop(w, c, api, fuel);
            var r1 := BatchLoop(w, c1, api, fuel - 1);
            && (r.LoopDone? <==> r1.LoopDone?)
            && (r1.LoopDone? ==> r.cache == r1.cache && r.err == r1.err)
  {
    var topics := api(GetQueue(c, w.project, w.serviceName)).topics;
    c1 := StoreByProjectAndServiceName(c, w.project, w.serviceName, topics);
    AnsweredBatchProgress(c, w.project, w.serviceName, topics);
    BatchLoopFoundStep(w, c, api, fuel, topics);
  }

  /** The loop ended without error, the queue of `k` is empty and every name queued or
      cached under `k` in `c` is cached. */
  ghost predicate Drained(c: Cache, r: Loop, k: string)
  {
    && r.LoopDone? && r.err.None?
    && SliceAt(r.cache.inQueue, k) == []
    && forall x :: x in SliceAt(c.inQueue, k) || x in TopicsAt(c, k) ==> x in TopicsAt(r.cache, k)
  }

  /** One answered round of the drain: what the rest of the loop `r1` achieves from the
      updated cache `c1`, the whole loop `r` achieves from `c`. */
  lemma DrainStep(c: Cache, c1: Cache, r: Loop, r1: Loop, k: string)
    requires forall x :: x in SliceAt(c.inQueue, k) ==> x in TopicsAt(c1, k) || x in SliceAt(c1.inQueue, k)
    requires forall x :: x in TopicsAt(c, k) ==> x in TopicsAt(c1, k)
    requires Drained(c1, r1, k)
    requires (r.LoopDone? <==> r1.LoopDone?) && (r1.LoopDone? ==> r.cache == r1.cache && r.err == r1.err)
    ensures Drained(c, r, k)
  {
  }

  /** `refresh`: skip when another refresh holds the permit or the topic is already cached;
      otherwise enqueue the topic and run the batch loop, releasing the permit at the end. */
  function RefreshTopics(w: Waiter, env: Env, api: seq<string> -> BatchResponse, fuel: nat): (r: Refresh)
    ensures env.permitHeld ==> r == Refreshed(env, None, [])
    ensures LoadByTopicName(env.cache, w.project, w.serviceName, w.topicName).1 ==> r == Refreshed(env, None, [])
    ensures r.Refreshed? ==> r.env.permitHeld == env.permitHeld
  {
    if env.permitHeld then Refreshed(env, None, [])
    else if LoadByTopicName(env.cache, w.project, w.serviceName, w.topicName).1 then Refreshed(env, None, [])
    else
      match BatchLoop(w, AddToQueue(env.cache, w.project, w.serviceName, w.topicName), api, fuel)
      case LoopOutOfFuel(bs) => RefreshOutOfFuel(bs)
      case LoopDone(c, err, bs) => Refreshed(Env(c, false), err, bs)
  }

  /** When the refresh runs, its first batch is the head of the queue after enqueuing the
      target, and the target is in that batch exactly when fewer than 99 names precede it. */
  lemma RefreshQueriesTargetFirst(w: Waiter, env: Env, api: seq<string> -> BatchResponse, fuel: nat)
    requires !env.permitHeld && fuel > 0
    requires !LoadByTopicName(env.cache, w.project, w.serviceName, w.topicName).1
    ensures var c := AddToQueue(env.cache, w.project, w.serviceName, w.topicName);
            var q := SliceAt(c.inQueue, Key(w.project, w.serviceName));
            var r := RefreshTopics(w, env, api, fuel);
            && IndexOf(q, w.topicName).Some?
            && r.batches != [] && r.batches[0] == GetQueue(c, w.project, w.serviceName)
            && (w.topicName in r.batches[0] <==> IndexOf(q, w.topicName).value < 99)
  {
    var c := AddToQueue(env.cache, w.project, w.serviceName, w.topicName);
    var q := SliceAt(c.inQueue, Key(w.project, w.serviceName));
    var batch := GetQueue(c, w.project, w.serviceName);
    var i := IndexOf(q, w.topicName).value;
    if i < 99 {
      assert batch[i] == q[i];
    } else {
      assert batch <= q[..i];
    }
  }

  /** With a backend that answers every batch and enough rounds, a refresh that runs caches
      the target and releases the permit. */
  lemma RefreshCachesTarget(w: Waiter, env: Env, api: seq<string> -> BatchResponse, fuel: nat)
    requires Complete(api) && !env.permitHeld
    requires fuel > |SliceAt(env.cache.inQueue, Key(w.project, w.serviceName))| + 1
    ensures var r := RefreshTopics(w, env, api, fuel);
            && r.Refreshed? && r.err.None? && !r.env.permitHeld
            && LoadByTopicName(r.env.cache, w.project, w.serviceName, w.topicName).1
  {
    if !LoadByTopicName(env.cache, w.project, w.serviceName, w.topicName).1 {
      var c := AddToQueue(env.cache, w.project, w.serviceName, w.topicName);
      DrainWithCompleteBackend(w, c, api, fuel);
    }
  }

  /** The refresh keeps the cache invariants and never uncaches a topic. */
  lemma RefreshPreservesInvariant(w: Waiter, env: Env, api: seq<string> -> BatchResponse, fuel: nat)
    requires Valid(env.cache) && MissingNotQueued(env.cache)
    requires w.topicName !in GetMissing(env.cache, w.project, w.serviceName)
    ensures var r := RefreshTopics(w, env, api, fuel);
            r.Refreshed? ==>
              && Valid(r.env.cache) && MissingNotQueued(r.env.cache)
              && CachedSubset(env.cache, r.env.cache) && r.env.cache.v1list == env.cache.v1list
  {
    if !env.permitHeld && !LoadByTopicName(env.cache, w.project, w.serviceName, w.topicName).1 {
      var c := AddToQueue(env.cache, w.project, w.serviceName, w.topicName);
      AddToQueuePreservesValid(env.cache, w.project, w.serviceName, w.topicName);
      AddToQueuePreservesMissingNotQueued(env.cache, w.project, w.serviceName, w.topicName);
      BatchLoopPreservesInvariant(w, c, api, fuel);
      BatchLoopFrame(w, c, api, fuel);
    }
  }

  // ---------------------------------------------------------------------------------------
  // The poll step

  function NotFoundError(topicName: string): Error
  {
    ApiError(404, "Topic " + topicName + " is not found")
  }

  function V1ListError(w: Waiter, cause: Error): Error
  {
    Wrapped("error calling v1 list for %s/%s: %w", [w.project, w.serviceName], cause)
  }

  /** Lines 46-52: the cache with the V1 listing fetched when none is held yet. */
  function EnsureV1List(w: Waiter, c: Cache, v1: ListResponse): (r: Result<Cache>)
    ensures GetV1List(c, w.project, w.serviceName) != [] ==> r == Ok(c)
    ensures GetV1List(c, w.project, w.serviceName) == [] && v1.ListFailed? ==> r == Fail(V1ListError(w, v1.error))
    ensures GetV1List(c, w.project, w.serviceName) == [] && v1.Listed? ==>
              r.Ok? && GetV1List(r.value, w.project, w.serviceName) == ListNames(v1.topics)
    ensures r.Ok? ==> r.value.internal == c.internal && r.value.inQueue == c.inQueue && r.value.missing == c.missing
    ensures r.Ok? ==> forall k :: k != Key(w.project, w.serviceName) ==> SliceAt(r.value.v1list, k) == SliceAt(c.v1list, k)
  {
    if |GetV1List(c, w.project, w.serviceName)| == 0 then
      match v1
      case ListFailed(e) => Fail(V1ListError(w, e))
      case Listed(topics) => Ok(SetV1List(c, w.project, w.serviceName, topics))
    else Ok(c)
  }

  /** Lines 63-76: the refresh error seen by the poll step; 501 and 502 are retried. */
  function RetryableOrReported(err: Error): (r: Option<Error>)
    ensures r.None? <==> err.ApiError? && (err.status == 501 || err.status == 502)
    ensures r.Some? ==> r.value == err
  {
    match err
    case ApiError(status, _) => if status == 501 || status == 502 then None else Some(err)
    case _ => Some(err)
  }

  /** One tick of `RefreshFunc`. */
  function PollStep(w: Waiter, env: Env, v1: ListResponse, api: seq<string> -> BatchResponse, fuel: nat): (r: Step)
    ensures r.Stepped? && r.result.err.Some? ==> r.result.topic.None? && r.result.state == Configuring
    ensures r.Stepped? && r.result.topic.Some? ==>
              && r.result.err.None?
              && r.result.state == r.result.topic.value.state
              && LoadByTopicName(r.env.cache, w.project, w.serviceName, w.topicName) == (r.result.topic.value, true)
    ensures r.Stepped? ==> r.env.permitHeld == env.permitHeld
    ensures r.Stepped? && r.result.err.Some? && r.result.err.value.ApiError? ==>
              r.result.err.value.status != 501 && r.result.err.value.status != 502
  {
    match EnsureV1List(w, env.cache, v1)
    case Fail(e) => Stepped(env, PollResult(None, Configuring, Some(e)), [])
    case Ok(c) =>
      var env1 := env.(cache := c);
      if w.topicName in GetMissing(c, w.project, w.serviceName) then
        Stepped(env1, PollResult(None, Configuring, Some(NotFoundError(w.topicName))), [])
      else
        var (topic, ok) := LoadByTopicName(c, w.project, w.serviceName, w.topicName);
        if ok then Stepped(env1, PollResult(Some(topic), topic.state, None), [])
        else match RefreshTopics(w, env1, api, fuel)
          case RefreshOutOfFuel(bs) => StepOutOfFuel(bs)
          case Refreshed(env2, Some(e), bs) => Stepped(env2, PollResult(None, Configuring, RetryableOrReported(e)), bs)
          case Refreshed(env2, None, bs) =>
            var (topic2, ok2) := LoadByTopicName(env2.cache, w.project, w.serviceName, w.topicName);
            if ok2 then Stepped(env2, PollResult(Some(topic2), topic2.state, None), bs)
            else Stepped(env2, PollResult(None, Configuring, None), bs)
  }

  /** A failed V1 listing fails the poll with the wrapped error; nothing else happens. */
  lemma PollV1ListFailure(w: Waiter, env: Env, v1: ListResponse, api: seq<string> -> BatchResponse, fuel: nat)
    requires GetV1List(env.cache, w.project, w.serviceName) == [] && v1.ListFailed?
    ensures var r := PollStep(w, env, v1, api, fuel);
            && r == Stepped(env, PollResult(None, Configuring, Some(V1ListError(w, v1.error))), [])
            && IsNotFound(r.result.err.value) == IsNotFound(v1.error)
  {
  }

  /** The V1 listing is fetched once: after a successful poll the cache holds it. */
  lemma PollKeepsV1List(w: Waiter, env: Env, v1: ListResponse, api: seq<string> -> BatchResponse, fuel: nat)
    requires GetV1List(env.cache, w.project, w.serviceName) == [] && v1.Listed?
    requires Valid(env.cache) && MissingNotQueued(env.cache)
    ensures var r := PollStep(w, env, v1, api, fuel);
            r.Stepped? ==> GetV1List(r.env.cache, w.project, w.serviceName) == ListNames(v1.topics)
  {
    PollPreservesInvariant(w, env, v1, api, fuel);
  }

  /** A topic recorded as missing is reported as not found, without querying anything. */
  lemma PollMissingIsNotFound(w: Waiter, env: Env, v1: ListResponse, api: seq<string> -> BatchResponse, fuel: nat)
    requires GetV1List(env.cache, w.project, w.serviceName) != [] || v1.Listed?
    requires w.topicName in GetMissing(env.cache, w.project, w.serviceName)
    ensures var r := PollStep(w, env, v1, api, fuel);
            && r.Stepped? && r.batches == [] && r.env.permitHeld == env.permitHeld
            && r.result == PollResult(None, Configuring, Some(NotFoundError(w.topicName)))
            && IsNotFound(r.result.err.value)
  {
  }

  /** A cached topic is reported with its cached state, without querying anything. */
  lemma PollCachedReportsState(w: Waiter, env: Env, v1: ListResponse, api: seq<string> -> BatchResponse, fuel: nat)
    requires GetV1List(env.cache, w.project, w.serviceName) != [] || v1.Listed?
    requires w.topicName !in GetMissing(env.cache, w.project, w.serviceName)
    requires w.topicName in TopicsAt(env.cache, Key(w.project, w.serviceName))
    ensures var r := PollStep(w, env, v1, api, fuel);
            var t := TopicsAt(env.cache, Key(w.project, w.serviceName))[w.topicName];
            && r.Stepped? && r.batches == []
            && r.result == PollResult(Some(t), t.state, None)
  {
  }

  /** While another refresh holds the permit, an uncached topic is reported as still
      configuring, without error and without querying anything. */
  lemma PollWhileRefreshInProgress(w: Waiter, env: Env, v1: ListResponse, api: seq<string> -> BatchResponse, fuel: nat)
    requires env.permitHeld
    requires GetV1List(env.cache, w.project, w.serviceName) != [] || v1.Listed?
    requires w.topicName !in GetMissing(env.cache, w.project, w.serviceName)
    requires w.topicName !in TopicsAt(env.cache, Key(w.project, w.serviceName))
    ensures var r := PollStep(w, env, v1, api, fuel);
            && r.Stepped? && r.batches == [] && r.env.permitHeld
            && r.result == PollResult(None, Configuring, None)
  {
  }

  /** When the poll refreshes and the refresh fails, the poll reports the error unchanged,
      except that a bare API error with status 501 or 502 is dropped so the wait goes on. */
  lemma PollReportsRefreshError(w: Waiter, env: Env, v1: ListResponse, api: seq<string> -> BatchResponse, fuel: nat)
    requires GetV1List(env.cache, w.project, w.serviceName) != [] || v1.Listed?
    requires w.topicName !in GetMissing(env.cache, w.project, w.serviceName)
    requires w.topicName !in TopicsAt(env.cache, Key(w.project, w.serviceName))
    ensures var r1 := RefreshTopics(w, env.(cache := EnsureV1List(w, env.cache, v1).value), api, fuel);
            r1.Refreshed? && r1.err.Some? ==>
              PollStep(w, env, v1, api, fuel)
                == Stepped(r1.env, PollResult(None, Configuring, RetryableOrReported(r1.err.value)), r1.batches)
  {
  }

  /** When the refresh succeeds, the poll reports the topic with its state if the refresh
      cached it, and otherwise reports it still configuring, without error. */
  lemma PollAfterSuccessfulRefresh(w: Waiter, env: Env, v1: ListResponse, api: seq<string> -> BatchResponse, fuel: nat)
    requires GetV1List(env.cache, w.project, w.serviceName) != [] || v1.Listed?
    requires w.topicName !in GetMissing(env.cache, w.project, w.serviceName)
    requires w.topicName !in TopicsAt(env.cache, Key(w.project, w.serviceName))
    ensures var r1 := RefreshTopics(w, env.(cache := EnsureV1List(w, env.cache, v1).value), api, fuel);
            var k := Key(w.project, w.serviceName);
            r1.Refreshed? && r1.err.None? ==>
              PollStep(w, env, v1, api, fuel)
                == Stepped(r1.env,
                           if w.topicName in TopicsAt(r1.env.cache, k)
                           then PollResult(Some(TopicsAt(r1.env.cache, k)[w.topicName]), TopicsAt(r1.env.cache, k)[w.topicName].state, None)
                           else PollResult(None, Configuring, None),
                           r1.batches)
  {
  }

  /** A refresh failing with an API error of status 501 or 502, whatever its message and
      whichever batch failed, is not an error of the poll: the topic stays configuring. */
  lemma PollRetriesGatewayErrors(w: Waiter, env: Env, v1: ListResponse, api: seq<string> -> BatchResponse, fuel: nat)
    requires GetV1List(env.cache, w.project, w.serviceName) != [] || v1.Listed?
    requires w.topicName !in GetMissing(env.cache, w.project, w.serviceName)
    requires w.topicName !in TopicsAt(env.cache, Key(w.project, w.serviceName))
    requires var r1 := RefreshTopics(w, env.(cache := EnsureV1List(w, env.cache, v1).value), api, fuel);
             && r1.Refreshed? && r1.err.Some? && r1.err.value.ApiError?
             && (r1.err.value.status == 501 || r1.err.value.status == 502)
    ensures var r1 := RefreshTopics(w, env.(cache := EnsureV1List(w, env.cache, v1).value), api, fuel);
            var r := PollStep(w, env, v1, api, fuel);
            && r.Stepped? && r.result == PollResult(None, Configuring, None)
            && r.env == r1.env && r.batches == r1.batches
  {
    PollReportsRefreshError(w, env, v1, api, fuel);
  }

  /** A poll step keeps the cache invariants and never uncaches a topic. */
  lemma PollPreservesInvariant(w: Waiter, env: Env, v1: ListResponse, api: seq<string> -> BatchResponse, fuel: nat)
    requires Valid(env.cache) && MissingNotQueued(env.cache)
    ensures var r := PollStep(w, env, v1, api, fuel);
            r.Stepped? ==>
              && Valid(r.env.cache) && MissingNotQueued(r.env.cache)
              && CachedSubset(env.cache, r.env.cache)
              && (GetV1List(env.cache, w.project, w.serviceName) != [] ==> r.env.cache.v1list == env.cache.v1list)
              && (GetV1List(env.cache, w.project, w.serviceName) == [] && v1.Listed? ==>
                    GetV1List(r.env.cache, w.project, w.serviceName) == ListNames(v1.topics))
              && (forall k :: k != Key(w.project, w.serviceName) ==>
                    SliceAt(r.env.cache.v1list, k) == SliceAt(env.cache.v1list, k))
  {
    match EnsureV1List(w, env.cache, v1)
    case Fail(_) =>
    case Ok(c) =>
      SameTopicsAndQueues(env.cache, c);
      var env1 := env.(cache := c);
      if w.topicName !in GetMissing(c, w.project, w.serviceName)
         && !LoadByTopicName(c, w.project, w.serviceName, w.topicName).1 {
        RefreshPreservesInvariant(w, env1, api, fuel);
        var r1 := RefreshTopics(w, env1, api, fuel);
        if r1.Refreshed? {
          CachedSubsetTransitive(env.cache, c, r1.env.cache);
        }
      }
  }

  /** The invariants and the cached topics depend only on the topics, queues and missing
      lists, not on the V1 listings. */
  lemma SameTopicsAndQueues(a: Cache, b: Cache)
    requires a.internal == b.internal && a.inQueue == b.inQueue && a.missing == b.missing
    ensures Valid(a) ==> Valid(b)
    ensures MissingNotQueued(a) ==> MissingNotQueued(b)
    ensures CachedSubset(a, b)
  {
    assert b == a.(v1list := b.v1list);
  }

  /** With a backend that answers every batch, a free permit and enough rounds, a topic that
      is not recorded as missing is reported with its state after one poll. */
  lemma PollConverges(w: Waiter, env: Env, v1: ListResponse, api: seq<string> -> BatchResponse, fuel: nat)
    requires Complete(api) && !env.permitHeld
    requires GetV1List(env.cache, w.project, w.serviceName) != [] || v1.Listed?
    requires w.topicName !in GetMissing(env.cache, w.project, w.serviceName)
    requires fuel > |SliceAt(env.cache.inQueue, Key(w.project, w.serviceName))| + 1
    ensures var r := PollStep(w, env, v1, api, fuel);
            && r.Stepped? && r.result.topic.Some? && r.result.err.None? && !r.env.permitHeld
  {
    match EnsureV1List(w, env.cache, v1)
    case Ok(c) =>
      RefreshCachesTarget(w, env.(cache := c), api, fuel);
  }
}

=== FILE: userconfig_handle.dfy ===
/** The attribute handlers of the user-config schema generator: given a property of a JSON
    schema (its name `n`, its definition `p` and its Terraform type `t`), they produce the
    Terraform schema entries to emit, keyed by attribute name. Generated code is kept as a
    small tree of `Code` values; schema literals are dictionaries keyed by field name. The
    generator's collaborators (type mapping, property conversion, descriptions, `%#v`
    rendering) are passed in as the functions of a `Generator`. */
module UserConfigHandle {
  import opened Outcomes

  // ---------------------------------------------------------------------------------------
  // Input and output values

  /** A decoded JSON-schema value. */
  datatype Json =
    | JNull
    | JBool(b: bool)
    | JInt(i: int)
    | JString(s: string)
    | JArray(items: seq<Json>)
    | JObject(fields: map<string, Json>)

  /** A `map[string]interface{}`. */
  type Object = map<string, Json>

  /** The two packages the generated code refers to. */
  datatype Package = SchemaPackage | SchemaUtilPackage

  /** A generated Go expression. `Opaque` stands for code built by a collaborator. */
  datatype Code =
    | Opaque(tag: string)
    | Lit(text: string)
    | IntLit(value: int)
    | Qual(pkg: Package, name: string)
    | Call(fn: Code, arg: Code)
    | SchemaPtr(fields: map<string, Code>)
    | SchemaMap(entries: map<string, Code>)
    | ResourcePtr(schema: Code)

  /** The fields of one `schema.Schema` literal. */
  type Dict = map<string, Code>

  /** The schema field `field` is set to `value`. */
  predicate Holds(d: Dict, field: string, value: Code)
  {
    field in d && d[field] == value
  }

  /** The handlers' outcome: a value, a returned error, or a run-time panic. */
  datatype Outcome<+T> = Done(value: T) | Failed(error: Error) | Panicked

  /** The generator's collaborators, which live outside this file:
      - terraformTypes: `TerraformTypes`, the Terraform and Aiven type names of JSON types;
      - isPrimitive: `isTerraformTypePrimitive`;
      - convertProperty: `convertPropertyToSchema(n, p, t, addDescription, isRequired)`;
      - convertProperties: `convertPropertiesToSchemaMap(properties, required)`;
      - describe: `descriptionForProperty`, the deprecation flag and the description;
      - slicedString: `SlicedString`, the type names of a `type` field;
      - keyed: `SliceToKeyedMap`, the names of a `required` list;
      - render: the `%#v` formatting of a value. */
  datatype Generator = Generator(
    terraformTypes: seq<string> -> Result<seq<(string, string)>>,
    isPrimitive: string -> bool,
    convertProperty: (string, Object, string, bool, bool) -> Dict,
    convertProperties: (Object, set<string>) -> Result<Dict>,
    describe: (Object, string) -> (bool, string),
    slicedString: Option<Json> -> seq<string>,
    keyed: seq<Json> -> set<string>,
    render: Json -> string)

  // Type assertions on the fields of an object: None when the field is absent or has another type.

  function Lookup(o: Object, key: string): Option<Json>
  {
    if key in o then Some(o[key]) else None
  }

  function ObjectAt(o: Object, key: string): (r: Option<Object>)
    ensures r.Some? <==> key in o && o[key].JObject?
  {
    if key in o && o[key].JObject? then Some(o[key].fields) else None
  }

  function ArrayAt(o: Object, key: string): (r: Option<seq<Json>>)
    ensures r.Some? <==> key in o && o[key].JArray?
  {
    if key in o && o[key].JArray? then Some(o[key].items) else None
  }

  function StringAt(o: Object, key: string): (r: Option<string>)
    ensures r.Some? <==> key in o && o[key].JString?
  {
    if key in o && o[key].JString? then Some(o[key].s) else None
  }

  function IntAt(o: Object, key: string): (r: Option<int>)
    ensures r.Some? <==> key in o && o[key].JInt?
  {
    if key in o && o[key].JInt? then Some(o[key].i) else None
  }

  /** The `required` names of a definition; none when the field is not a list. */
  function RequiredOf(g: Generator, o: Object): set<string>
  {
    match ArrayAt(o, "required")
    case Some(names) => g.keyed(names)
    case None => {}
  }

  const ItemsNotMap := "items is not a map[string]interface{}: %#v"
  const OneOfElementNotMap := "one_of element is not a map[string]interface{}: %#v"
  const OneOfItemNotMap := "unable to convert one_of item to map[string]interface{}: %#v"
  const OneOfPropertiesNotMap := "unable to convert one_of item properties to map[string]interface{}: %#v"
  const ArrayPropertiesMissing := "could not find properties in an array of aggregate type: %#v"
  const OneOfTypeNotString := "one_of item type is not a string: %#v"
  const PropertiesMissing := "unable to get properties field: %#v"
  const UnknownAggregateType := "unknown aggregate type: %s"
  const Discouraged := "Usage of this field is discouraged."

  function V5Message(an: string): string
  {
    "This will be removed in v5.0.0 and replaced with " + an + "_string instead."
  }

  // ---------------------------------------------------------------------------------------
  // Primitive and object properties

  /** A primitive property yields one entry, under its own name. */
  function HandlePrimitiveTypeProperty(g: Generator, n: string, p: Object, t: string, isRequired: bool): (r: map<string, Dict>)
    ensures r.Keys == {n}
    ensures r[n] == g.convertProperty(n, p, t, true, isRequired)
  {
    map[n := g.convertProperty(n, p, t, true, isRequired)]
  }

  /** Where an object property's fields come from: `properties`, else `items.properties`. */
  function PropertiesOf(p: Object): (r: Option<Object>)
    ensures ObjectAt(p, "properties").Some? ==> r == ObjectAt(p, "properties")
    ensures ObjectAt(p, "properties").None? && ObjectAt(p, "items").Some? ==> r == ObjectAt(ObjectAt(p, "items").value, "properties")
    ensures ObjectAt(p, "properties").None? && ObjectAt(p, "items").None? ==> r.None?
  {
    match ObjectAt(p, "properties")
    case Some(pa) => Some(pa)
    case None =>
      match ObjectAt(p, "items")
      case Some(it) => ObjectAt(it, "properties")
      case None => None
  }

  /** An object property becomes a single entry `n`: a one-element list whose element is a
      resource built from the converted fields, with the empty-object diff suppression. */
  function HandleObjectProperty(g: Generator, n: string, p: Object, t: string, req: set<string>): (r: Outcome<map<string, Dict>>)
    ensures PropertiesOf(p).None? ==> r == Failed(Formatted(PropertiesMissing, [g.render(JObject(p))]))
    ensures PropertiesOf(p).Some? && g.convertProperties(PropertiesOf(p).value, req).Fail? ==>
              r == Failed(g.convertProperties(PropertiesOf(p).value, req).error)
    ensures r.Done? <==> PropertiesOf(p).Some? && g.convertProperties(PropertiesOf(p).value, req).Ok?
    ensures r.Done? ==>
              var s := SchemaMap(g.convertProperties(PropertiesOf(p).value, req).value);
              && r.value.Keys == {n}
              && Holds(r.value[n], "MaxItems", IntLit(1))
              && Holds(r.value[n], "Elem", ResourcePtr(s))
              && Holds(r.value[n], "DiffSuppressFunc", Call(Qual(SchemaUtilPackage, "EmptyObjectDiffSuppressFuncSkipArrays"), s))
              && forall f :: f in g.convertProperty(n, p, t, true, false) && f !in {"Elem", "DiffSuppressFunc", "MaxItems"} ==>
                   f in r.value[n] && r.value[n][f] == g.convertProperty(n, p, t, true, false)[f]
  {
    match PropertiesOf(p)
    case None => Failed(Formatted(PropertiesMissing, [g.render(JObject(p))]))
    case Some(pa) =>
      var r := g.convertProperty(n, p, t, true, false);
      match g.convertProperties(pa, req)
      case Fail(e) => Failed(e)
      case Ok(pc) =>
        var s := SchemaMap(pc);
        var r1 := r["Elem" := ResourcePtr(s)]
                   ["DiffSuppressFunc" := Call(Qual(SchemaUtilPackage, "EmptyObjectDiffSuppressFuncSkipArrays"), s)]
                   ["MaxItems" := IntLit(1)];
        Done(map[n := r1])
  }

  // ---------------------------------------------------------------------------------------
  // Array properties: naming

  /** The renames kept for compatibility until the next major version. */
  function Rename(an: string): (r: string)
    ensures r != "ip_filter_string" && r != "namespaces_string"
    ensures an != "ip_filter_string" && an != "namespaces_string" ==> r == an
  {
    if an == "ip_filter_string" then "ip_filter"
    else if an == "namespaces_string" then "namespaces"
    else an
  }

  /** The attribute name for one of `count` Terraform types with Aiven type name `aivenType`. */
  function KeyName(n: string, count: nat, aivenType: string): string
  {
    if count > 1 then Rename(n + "_" + aivenType) else n
  }

  /** With one type the key is the property name; with several it is name_type, except that
      ip_filter_string and namespaces_string are renamed to ip_filter and namespaces, so a
      key of several types never has one of those two names. */
  lemma KeyNameRule(n: string, count: nat, aivenType: string)
    ensures count <= 1 ==> KeyName(n, count, aivenType) == n
    ensures count > 1 ==>
              var full := n + "_" + aivenType;
              KeyName(n, count, aivenType) ==
                (if full == "ip_filter_string" then "ip_filter"
                 else if full == "namespaces_string" then "namespaces"
                 else full)
    ensures count > 1 ==> KeyName(n, count, aivenType) != "ip_filter_string" && KeyName(n, count, aivenType) != "namespaces_string"
  {
  }

  /** Keys that also get a `_string` companion entry. */
  predicate Companion(an: string, isOneOf: bool)
  {
    an == "ip_filter" || (isOneOf && an == "namespaces")
  }

  /** The keys one type contributes: its own key, plus the companion when it has one. */
  function EntryKeys(an: string, isOneOf: bool): set<string>
  {
    {an} + (if Companion(an, isOneOf) then {an + "_string"} else {})
  }

  /** The keys the types from position k on contribute. */
  function KeysFrom(n: string, types: seq<(string, string)>, isOneOf: bool, k: nat): set<string>
    requires k <= |types|
    decreases |types| - k
  {
    if k == |types| then {}
    else EntryKeys(KeyName(n, |types|, types[k].1), isOneOf) + KeysFrom(n, types, isOneOf, k + 1)
  }

  // ---------------------------------------------------------------------------------------
  // Array properties: the one_of scan

  /** A one_of element the type scan accepts: an object whose `type` is a string. */
  predicate TypedObject(v: Json)
  {
    v.JObject? && StringAt(v.fields, "type").Some?
  }

  /** Lines 105-112: the `type` of every one_of element, in order. An element that is not an
      object is an error; an object whose `type` is not a string panics the type assertion. */
  function OneOfTypes(g: Generator, oos: seq<Json>): (r: Outcome<seq<string>>)
    ensures r.Done? <==> forall i :: 0 <= i < |oos| ==> TypedObject(oos[i])
    ensures r.Done? ==> |r.value| == |oos| && forall i :: 0 <= i < |oos| ==> StringAt(oos[i].fields, "type") == Some(r.value[i])
    ensures r.Failed? ==> exists i :: 0 <= i < |oos| && !oos[i].JObject?
                                      && r.error == Formatted(OneOfElementNotMap, [g.render(oos[i])])
                                      && forall j :: 0 <= j < i ==> TypedObject(oos[j])
    ensures r.Panicked? ==> exists i :: 0 <= i < |oos| && oos[i].JObject? && !TypedObject(oos[i])
                                        && forall j :: 0 <= j < i ==> TypedObject(oos[j])
    decreases |oos|
  {
    if oos == [] then Done([])
    else if !oos[0].JObject? then Failed(Formatted(OneOfElementNotMap, [g.render(oos[0])]))
    else match StringAt(oos[0].fields, "type")
      case None => Panicked
      case Some(ty) =>
        match OneOfTypes(g, oos[1..])
        case Failed(e) =>
          ghost var i :| 0 <= i < |oos[1..]| && !oos[1..][i].JObject? && e == Formatted(OneOfElementNotMap, [g.render(oos[1..][i])])
                         && forall j :: 0 <= j < i ==> TypedObject(oos[1..][j]);
          assert forall j :: 0 <= j < i + 1 ==> TypedObject(oos[j]) by {
            forall j | 0 <= j < i + 1 ensures TypedObject(oos[j]) {
              if j > 0 { assert oos[j] == oos[1..][j - 1]; }
            }
          }
          Failed(e)
        case Panicked =>
          ghost var i :| 0 <= i < |oos[1..]| && oos[1..][i].JObject? && !TypedObject(oos[1..][i])
                         && forall j :: 0 <= j < i ==> TypedObject(oos[1..][j]);
          assert forall j :: 0 <= j < i + 1 ==> TypedObject(oos[j]) by {
            forall j | 0 <= j < i + 1 ensures TypedObject(oos[j]) {
              if j > 0 { assert oos[j] == oos[1..][j - 1]; }
            }
          }
          Panicked
        case Done(rest) =>
          assert forall i :: 1 <= i < |oos| ==> oos[i] == oos[1..][i - 1];
          Done([ty] + rest)
  }

  /** The Terraform and Aiven type names of the items: from the one_of element types when
      `one_of` is a list, from the items' `type` otherwise. */
  function ItemTypes(g: Generator, ia: Object): (r: Outcome<seq<(string, string)>>)
    ensures ArrayAt(ia, "one_of").None? ==>
              r == match g.terraformTypes(g.slicedString(Lookup(ia, "type")))
                   case Ok(types) => Done(types)
                   case Fail(e) => Failed(e)
    ensures ArrayAt(ia, "one_of").Some? && OneOfTypes(g, ArrayAt(ia, "one_of").value).Failed? ==>
              r == Failed(OneOfTypes(g, ArrayAt(ia, "one_of").value).error)
    ensures ArrayAt(ia, "one_of").Some? && OneOfTypes(g, ArrayAt(ia, "one_of").value).Panicked? ==> r == Panicked
    ensures ArrayAt(ia, "one_of").Some? && OneOfTypes(g, ArrayAt(ia, "one_of").value).Done? ==>
              r == match g.terraformTypes(OneOfTypes(g, ArrayAt(ia, "one_of").value).value)
                   case Ok(types) => Done(types)
                   case Fail(e) => Failed(e)
  {
    var ct := match ArrayAt(ia, "one_of")
      case Some(oos) => OneOfTypes(g, oos)
      case None => Done(g.slicedString(Lookup(ia, "type")));
    match ct
    case Failed(e) => Failed(e)
    case Panicked => Panicked
    case Done(names) =>
      match g.terraformTypes(names)
      case Ok(types) => Done(types)
      case Fail(e) => Failed(e)
  }

  // ---------------------------------------------------------------------------------------
  // Array properties: one entry per type

  /** The entry one type produces: its key, its schema, and the `_string` companion schema. */
  datatype Entry = Entry(key: string, schema: Dict, companion: Option<Dict>)

  /** `handleArrayOfPrimitiveTypeProperty`: a schema of the given type; ip_filter also gets
      the value diff suppression. */
  function ArrayOfPrimitive(an: string, tfType: string): (r: Code)
    ensures r.SchemaPtr? && Holds(r.fields, "Type", Qual(SchemaPackage, tfType))
    ensures "DiffSuppressFunc" in r.fields <==> an == "ip_filter"
  {
    var d := map["Type" := Qual(SchemaPackage, tfType)];
    SchemaPtr(if an == "ip_filter" then d["DiffSuppressFunc" := Qual(SchemaUtilPackage, "IPFilterValueDiffSuppressFunc")] else d)
  }

  /** The one_of element at position k, as an object, when `one_of` is a list. */
  function OneOfItem(g: Generator, oneOf: Option<seq<Json>>, k: nat): (r: Outcome<Option<Object>>)
    ensures oneOf.None? ==> r == Done(None)
    ensures oneOf.Some? && k >= |oneOf.value| ==> r == Panicked
    ensures r.Done? && oneOf.Some? ==> k < |oneOf.value| && oneOf.value[k].JObject? && r.value == Some(oneOf.value[k].fields)
  {
    match oneOf
    case None => Done(None)
    case Some(oos) =>
      if k >= |oos| then Panicked
      else if oos[k].JObject? then Done(Some(oos[k].fields))
      else Failed(Formatted(OneOfItemNotMap, [g.render(oos[k])]))
  }

  /** The `Elem` of an entry: a primitive schema, or a resource built from the fields of the
      one_of element (one_of) or of the items. */
  function ElemFor(g: Generator, an: string, p: Object, ia: Object, item: Option<Object>, tfType: string): (r: Outcome<Code>)
    ensures g.isPrimitive(tfType) ==> r == Done(ArrayOfPrimitive(an, tfType))
    ensures !g.isPrimitive(tfType) && r.Done? ==> r.value.ResourcePtr?
  {
    if g.isPrimitive(tfType) then Done(ArrayOfPrimitive(an, tfType))
    else
      var ipa := match item
        case Some(ooia) =>
          (match ObjectAt(ooia, "properties")
           case Some(pa) => Done(pa)
           case None => Failed(Formatted(OneOfPropertiesNotMap, [g.render(JObject(ooia))])))
        case None =>
          (match ObjectAt(ia, "properties")
           case Some(pa) => Done(pa)
           case None => Failed(Formatted(ArrayPropertiesMissing, [g.render(JObject(p))])));
      match ipa
      case Failed(e) => Failed(e)
      case Panicked => Panicked
      case Done(pa) =>
        match g.convertProperties(pa, RequiredOf(g, ia))
        case Fail(e) => Failed(e)
        case Ok(pc) => Done(ResourcePtr(SchemaMap(pc)))
  }

  /** Lines 185-202: the base schema; for a one_of element it gets the combined description
      and, when the element is deprecated, the discouragement notice. */
  function DescribedSchema(g: Generator, n: string, p: Object, t: string, item: Option<Object>): (r: Outcome<Dict>)
    ensures item.None? ==> r == Done(g.convertProperty(n, p, t, true, false))
    ensures item.Some? && StringAt(item.value, "type").None? ==>
              r == Failed(Formatted(OneOfTypeNotString, [g.render(JObject(item.value))]))
    ensures item.Some? && r.Done? ==>
              var ty := StringAt(item.value, "type").value;
              && Holds(r.value, "Description", Lit(g.describe(p, t).1 + " " + g.describe(item.value, ty).1))
              && ("Deprecated" in r.value <==>
                    "Deprecated" in g.convertProperty(n, p, t, false, false) || g.describe(item.value, ty).0)
  {
    match item
    case None => Done(g.convertProperty(n, p, t, true, false))
    case Some(ooia) =>
      var s := g.convertProperty(n, p, t, false, false);
      match StringAt(ooia, "type")
      case None => Failed(Formatted(OneOfTypeNotString, [g.render(JObject(ooia))]))
      case Some(ooiat) =>
        var (_, dpv) := g.describe(p, t);
        var (dooiid, dooid) := g.describe(ooia, ooiat);
        var s1 := s["Description" := Lit(dpv + " " + dooid)];
        Done(if dooiid then s1["Deprecated" := Lit(Discouraged)] else s1)
  }

  /** Lines 204-231 for one key: set `Elem`, the ip_filter diff suppression and `MaxItems`;
      copy; then give the original the v5 deprecation message when it has a companion. */
  function FinishEntry(an: string, p: Object, isOneOf: bool, s: Dict, e: Code): (r: Entry)
    ensures r.key == an
    ensures r.companion.Some? <==> Companion(an, isOneOf)
    ensures Holds(r.schema, "Elem", e)
    ensures an == "ip_filter" ==> Holds(r.schema, "DiffSuppressFunc", Qual(SchemaUtilPackage, "IPFilterArrayDiffSuppressFunc"))
    ensures IntAt(p, "max_items").Some? ==> Holds(r.schema, "MaxItems", IntLit(IntAt(p, "max_items").value))
    ensures r.companion.Some? ==> r.schema == r.companion.value["Deprecated" := Lit(V5Message(an))]
    ensures r.companion.None? ==> ("Deprecated" in r.schema <==> "Deprecated" in s)
  {
    var s1 := s["Elem" := e];
    var s2 := if an == "ip_filter" then s1["DiffSuppressFunc" := Qual(SchemaUtilPackage, "IPFilterArrayDiffSuppressFunc")] else s1;
    var s3 := match IntAt(p, "max_items")
      case Some(mi) => s2["MaxItems" := IntLit(mi)]
      case None => s2;
    if Companion(an, isOneOf) then Entry(an, s3["Deprecated" := Lit(V5Message(an))], Some(s3))
    else Entry(an, s3, None)
  }

  /** One iteration of the loop over the Terraform types (lines 127-231). */
  function ArrayEntry(g: Generator, n: string, p: Object, t: string, ia: Object, oneOf: Option<seq<Json>>,
                      count: nat, k: nat, tfType: string, aivenType: string): (r: Outcome<Entry>)
    ensures r.Done? ==>
              && r.value.key == KeyName(n, count, aivenType)
              && (r.value.companion.Some? <==> Companion(r.value.key, oneOf.Some?))
              && (r.value.companion.Some? ==> r.value.schema == r.value.companion.value["Deprecated" := Lit(V5Message(r.value.key))])
  {
    var an := KeyName(n, count, aivenType);
    match OneOfItem(g, oneOf, k)
    case Failed(e) => Failed(e)
    case Panicked => Panicked
    case Done(item) =>
      match ElemFor(g, an, p, ia, item, tfType)
      case Failed(e) => Failed(e)
      case Panicked => Panicked
      case Done(e) =>
        match DescribedSchema(g, n, p, t, item)
        case Failed(err) => Failed(err)
        case Panicked => Panicked
        case Done(s) => Done(FinishEntry(an, p, oneOf.Some?, s, e))
  }

  /** Adds an entry, and its companion, to the result map (lines 227-231). */
  function Put(r: map<string, Dict>, entry: Entry): (r': map<string, Dict>)
    ensures r'.Keys == r.Keys + {entry.key} + (if entry.companion.Some? then {entry.key + "_string"} else {})
  {
    var r1 := r[entry.key := entry.schema];
    match entry.companion
    case None => r1
    case Some(os) => r1[entry.key + "_string" := os]
  }

  function ArrayEntries(g: Generator, n: string, p: Object, t: string, ia: Object, oneOf: Option<seq<Json>>,
                        types: seq<(string, string)>, k: nat, r: map<string, Dict>): (res: Outcome<map<string, Dict>>)
    requires k <= |types|
    decreases |types| - k
  {
    if k == |types| then Done(r)
    else
      match ArrayEntry(g, n, p, t, ia, oneOf, |types|, k, types[k].0, types[k].1)
      case Failed(e) => Failed(e)
      case Panicked => Panicked
      case Done(entry) => ArrayEntries(g, n, p, t, ia, oneOf, types, k + 1, Put(r, entry))
  }

  /** An array property: one entry per Terraform type of its items, plus the `_string`
      companions. Fails when `items` is not an object. */
  function HandleArrayProperty(g: Generator, n: string, p: Object, t: string): (r: Outcome<map<string, Dict>>)
    ensures ObjectAt(p, "items").None? ==> r == Failed(Formatted(ItemsNotMap, [g.render(JObject(p))]))
    ensures ObjectAt(p, "items").Some? && ItemTypes(g, ObjectAt(p, "items").value).Failed? ==>
              r == Failed(ItemTypes(g, ObjectAt(p, "items").value).error)
  {
    match ObjectAt(p, "items")
    case None => Failed(Formatted(ItemsNotMap, [g.render(JObject(p))]))
    case Some(ia) =>
      match ItemTypes(g, ia)
      case Failed(e) => Failed(e)
      case Panicked => Panicked
      case Done(types) => ArrayEntries(g, n, p, t, ia, ArrayAt(ia, "one_of"), types, 0, map[])
  }

  // ---------------------------------------------------------------------------------------
  // Array properties: what the result holds

  /** Every key with a companion carries the v5 deprecation message, and its companion is the
      same schema without it. */
  ghost predicate CompanionsConsistent(r: map<string, Dict>, isOneOf: bool)
  {
    forall an :: an in r && Companion(an, isOneOf) ==>
      an + "_string" in r && r[an] == r[an + "_string"]["Deprecated" := Lit(V5Message(an))]
  }

  lemma PutKeepsCompanions(r: map<string, Dict>, entry: Entry, isOneOf: bool)
    requires CompanionsConsistent(r, isOneOf)
    requires entry.companion.Some? <==> Companion(entry.key, isOneOf)
    requires entry.companion.Some? ==> entry.schema == entry.companion.value["Deprecated" := Lit(V5Message(entry.key))]
    requires r == map[] || (entry.key != "ip_filter_string" && entry.key != "namespaces_string")
    ensures CompanionsConsistent(Put(r, entry), isOneOf)
  {
    var r' := Put(r, entry);
    forall an | an in r' && Companion(an, isOneOf)
      ensures an + "_string" in r' && r'[an] == r'[an + "_string"]["Deprecated" := Lit(V5Message(an))]
    {
      if an != entry.key {
        assert an in r;
        assert an + "_string" != entry.key by {
          if an == "ip_filter" {
            assert (an + "_string") == "ip_filter_string";
          } else {
            assert (an + "_string") == "namespaces_string";
          }
        }
        if entry.companion.Some? {
          assert an + "_string" != entry.key + "_string" by {
            assert (an + "_string")[..|an|] == an;
            assert (entry.key + "_string")[..|entry.key|] == entry.key;
          }
        }
      }
    }
  }

  /** One step of the loop: a successful entry is put into the map and the loop goes on. */
  lemma ArrayEntriesStep(g: Generator, n: string, p: Object, t: string, ia: Object, oneOf: Option<seq<Json>>,
                         types: seq<(string, string)>, k: nat, r: map<string, Dict>)
    requires k < |types|
    requires ArrayEntry(g, n, p, t, ia, oneOf, |types|, k, types[k].0, types[k].1).Done?
    ensures var entry := ArrayEntry(g, n, p, t, ia, oneOf, |types|, k, types[k].0, types[k].1).value;
            && ArrayEntries(g, n, p, t, ia, oneOf, types, k, r) == ArrayEntries(g, n, p, t, ia, oneOf, types, k + 1, Put(r, entry))
            && Put(r, entry).Keys == r.Keys + EntryKeys(entry.key, oneOf.Some?)
            && KeysFrom(n, types, oneOf.Some?, k) == EntryKeys(entry.key, oneOf.Some?) + KeysFrom(n, types, oneOf.Some?, k + 1)
  {
  }

  /** The loop ends with the map once every type is handled, and stops at an entry that
      fails or panics. */
  lemma ArrayEntriesStop(g: Generator, n: string, p: Object, t: string, ia: Object, oneOf: Option<seq<Json>>,
                         types: seq<(string, string)>, k: nat, r: map<string, Dict>)
    requires k <= |types|
    requires k < |types| ==> !ArrayEntry(g, n, p, t, ia, oneOf, |types|, k, types[k].0, types[k].1).Done?
    ensures k == |types| ==> ArrayEntries(g, n, p, t, ia, oneOf, types, k, r) == Done(r) && KeysFrom(n, types, oneOf.Some?, k) == {}
    ensures k < |types| ==> !ArrayEntries(g, n, p, t, ia, oneOf, types, k, r).Done?
  {
  }

  /** One turn of the loop, seen from outside: either an entry was made and the loop goes on
      with it put into the map, or the loop has stopped. */
  lemma ArrayEntriesTurn(g: Generator, n: string, p: Object, t: string, ia: Object, oneOf: Option<seq<Json>>,
                         types: seq<(string, string)>, k: nat, r: map<string, Dict>)
    returns (made: bool, entry: Entry)
    requires k <= |types|
    ensures made ==>
              && k < |types|
              && ArrayEntries(g, n, p, t, ia, oneOf, types, k, r) == ArrayEntries(g, n, p, t, ia, oneOf, types, k + 1, Put(r, entry))
              && Put(r, entry).Keys == r.Keys + EntryKeys(entry.key, oneOf.Some?)
              && KeysFrom(n, types, oneOf.Some?, k) == EntryKeys(entry.key, oneOf.Some?) + KeysFrom(n, types, oneOf.Some?, k + 1)
              && (entry.companion.Some? <==> Companion(entry.key, oneOf.Some?))
              && (entry.companion.Some? ==> entry.schema == entry.companion.value["Deprecated" := Lit(V5Message(entry.key))])
              && (|types| > 1 ==> entry.key != "ip_filter_string" && entry.key != "namespaces_string")
    ensures !made && k == |types| ==> ArrayEntries(g, n, p, t, ia, oneOf, types, k, r) == Done(r) && KeysFrom(n, types, oneOf.Some?, k) == {}
    ensures !made && k < |types| ==> !ArrayEntries(g, n, p, t, ia, oneOf, types, k, r).Done?
  {
    made := k < |types| && ArrayEntry(g, n, p, t, ia, oneOf, |types|, k, types[k].0, types[k].1).Done?;
    if made {
      entry := ArrayEntry(g, n, p, t, ia, oneOf, |types|, k, types[k].0, types[k].1).value;
      ArrayEntriesStep(g, n, p, t, ia, oneOf, types, k, r);
      KeyNameRule(n, |types|, types[k].1);
    } else {
      entry := Entry([], map[], None);
      ArrayEntriesStop(g, n, p, t, ia, oneOf, types, k, r);
    }
  }

  lemma SetUnionAssoc<T>(a: set<T>, b: set<T>, c: set<T>)
    ensures (a + b) + c == a + (b + c)
  {
  }

  lemma SetUnionEmpty<T>(a: set<T>)
    ensures a + {} == a
  {
  }

  /** The loop adds exactly the keys of the remaining types. */
  lemma {:induction false} ArrayEntriesKeys(g: Generator, n: string, p: Object, t: string, ia: Object, oneOf: Option<seq<Json>>,
                                            types: seq<(string, string)>, k: nat, r: map<string, Dict>)
    requires k <= |types|
    ensures var res := ArrayEntries(g, n, p, t, ia, oneOf, types, k, r);
            res.Done? ==> res.value.Keys == r.Keys + KeysFrom(n, types, oneOf.Some?, k)
    decreases |types| - k
  {
    var made, entry := ArrayEntriesTurn(g, n, p, t, ia, oneOf, types, k, r);
    if made {
      var r' := Put(r, entry);
      var rest := KeysFrom(n, types, oneOf.Some?, k + 1);
      var here := EntryKeys(entry.key, oneOf.Some?);
      ArrayEntriesKeys(g, n, p, t, ia, oneOf, types, k + 1, r');
      SetUnionAssoc(r.Keys, here, rest);
    } else if k == |types| {
      SetUnionEmpty(r.Keys);
    }
  }

  /** The loop keeps the companions consistent. */
  lemma ArrayEntriesCompanions(g: Generator, n: string, p: Object, t: string, ia: Object, oneOf: Option<seq<Json>>,
                               types: seq<(string, string)>, k: nat, r: map<string, Dict>)
    requires k <= |types|
    requires CompanionsConsistent(r, oneOf.Some?)
    requires |types| > 1 || r == map[]
    ensures var res := ArrayEntries(g, n, p, t, ia, oneOf, types, k, r);
            res.Done? ==> CompanionsConsistent(res.value, oneOf.Some?)
  {
    if |types| > 1 {
      ManyEntriesCompanions(g, n, p, t, ia, oneOf, types, k, r);
    } else {
      var made, entry := ArrayEntriesTurn(g, n, p, t, ia, oneOf, types, k, r);
      if made {
        var r' := Put(r, entry);
        PutKeepsCompanions(r, entry, oneOf.Some?);
        var made', _ := ArrayEntriesTurn(g, n, p, t, ia, oneOf, types, k + 1, r');
        assert !made';
      }
    }
  }

  /** With several types no key is ip_filter_string or namespaces_string, so no entry
      overwrites an earlier companion. */
  lemma {:induction false} ManyEntriesCompanions(g: Generator, n: string, p: Object, t: string, ia: Object, oneOf: Option<seq<Json>>,
                                                 types: seq<(string, string)>, k: nat, r: map<string, Dict>)
    requires k <= |types|
    requires CompanionsConsistent(r, oneOf.Some?)
    requires |types| > 1
    ensures var res := ArrayEntries(g, n, p, t, ia, oneOf, types, k, r);
            res.Done? ==> CompanionsConsistent(res.value, oneOf.Some?)
    decreases |types| - k
  {
    var made, entry := ArrayEntriesTurn(g, n, p, t, ia, oneOf, types, k, r);
    if made {
      var r' := Put(r, entry);
      PutKeepsCompanions(r, entry, oneOf.Some?);
      ManyEntriesCompanions(g, n, p, t, ia, oneOf, types, k + 1, r');
    }
  }

  /** Lines 125-234: the keys of a generated array property are exactly those of its types
      (each type's key plus at most one `_string` companion), and every key with a companion
      carries the v5 deprecation message that its companion lacks. */
  lemma ArrayPropertyKeys(g: Generator, n: string, p: Object, t: string)
    ensures var r := HandleArrayProperty(g, n, p, t);
            r.Done? ==>
              var ia := ObjectAt(p, "items").value;
              var oneOf := ArrayAt(ia, "one_of").Some?;
              var types := ItemTypes(g, ia).value;
              && r.value.Keys == KeysFrom(n, types, oneOf, 0)
              && CompanionsConsistent(r.value, oneOf)
  {
    match ObjectAt(p, "items")
    case None =>
    case Some(ia) =>
      match ItemTypes(g, ia)
      case Failed(_) =>
      case Panicked =>
      case Done(types) =>
        ArrayEntriesKeys(g, n, p, t, ia, ArrayAt(ia, "one_of"), types, 0, map[]);
        ArrayEntriesCompanions(g, n, p, t, ia, ArrayAt(ia, "one_of"), types, 0, map[]);
  }

  /** With exactly one Terraform type the property keeps its own name, plus the companion
      when it is ip_filter (or namespaces from one_of). */
  lemma SingleTypeKeys(n: string, types: seq<(string, string)>, isOneOf: bool)
    requires |types| == 1
    ensures KeysFrom(n, types, isOneOf, 0) == EntryKeys(n, isOneOf)
  {
  }

  /** A one_of element that is not an object fails the whole property with the element
      error, provided every earlier element is an object with a string type. */
  lemma OneOfElementNotObjectFails(g: Generator, n: string, p: Object, t: string, i: nat)
    requires ObjectAt(p, "items").Some? && ArrayAt(ObjectAt(p, "items").value, "one_of").Some?
    requires var oos := ArrayAt(ObjectAt(p, "items").value, "one_of").value;
             i < |oos| && !oos[i].JObject? && forall j :: 0 <= j < i ==> TypedObject(oos[j])
    ensures var oos := ArrayAt(ObjectAt(p, "items").value, "one_of").value;
            HandleArrayProperty(g, n, p, t) == Failed(Formatted(OneOfElementNotMap, [g.render(oos[i])]))
  {
    var oos := ArrayAt(ObjectAt(p, "items").value, "one_of").value;
    OneOfFirstBad(g, oos, i);
  }

  lemma {:induction false} OneOfFirstBad(g: Generator, oos: seq<Json>, i: nat)
    requires i < |oos| && !oos[i].JObject? && forall j :: 0 <= j < i ==> TypedObject(oos[j])
    ensures OneOfTypes(g, oos) == Failed(Formatted(OneOfElementNotMap, [g.render(oos[i])]))
    decreases i
  {
    if i > 0 {
      assert forall j :: 0 <= j < i - 1 ==> oos[1..][j] == oos[j + 1];
      OneOfFirstBad(g, oos[1..], i - 1);
    }
  }

  // ---------------------------------------------------------------------------------------
  // Aggregate properties

  /** Dispatch on the aggregate type: objects and arrays go to their handlers (the object
      handler with the `required` names of the property), anything else is an error. */
  function HandleAggregateTypeProperty(g: Generator, n: string, p: Object, t: string, at: string): (r: Outcome<map<string, Dict>>)
    ensures at != "object" && at != "array" ==> r == Failed(Formatted(UnknownAggregateType, [at]))
    ensures at == "object" ==> r == HandleObjectProperty(g, n, p, t, RequiredOf(g, p))
    ensures at == "array" ==> r == HandleArrayProperty(g, n, p, t)
    ensures at == "object" && r.Done? ==> r.value.Keys == {n}
  {
    // Copying the handler's map into the fresh result map gives that same map.
    var req := RequiredOf(g, p);
    if at == "object" then HandleObjectProperty(g, n, p, t, req)
    else if at == "array" then HandleArrayProperty(g, n, p, t)
    else Failed(Formatted(UnknownAggregateType, [at]))
  }
}
